=== FILE: README.md ===
# vcli decision logic in Dafny

`vcli` is a command-line tool that drives a VMware vSphere installation.
It is one Python 2 class, `VCLI-0.2.20.py`. Beneath its remote calls (the
property collector, `Reconfigure`, `attach`/`detach`, `PowerOn`, `Clone`, …)
sits plain decision logic: which objects a list of names selects, which
disk or network is meant, what capacity or CPU count to ask for, which
snapshot to remove, which tags to detach before attaching another, how
long to wait for a task. This project models that logic as pure functions
and methods over immutable records. It proves what the logic promises.

Remote objects become records (`Inventory`): a VM with its power state,
configuration, snapshot tree, host and device list; a network, which is
either a distributed port group or a standard network; a tag
and its category. A remote call that changes something is not executed.
Each operation returns the request it would submit (a disk spec, a clone
request, a list of attach and detach steps), or the reason it submits
nothing. A remote value that changes while the tool polls it is given as
a trace: the task state of `_waitOnTask`, and the power state of
`_shutdown`. Sleeping is counted, not performed.

Modules follow the source's structure:

- `Text`: the Python string operations the code relies on.
- `Tokens`: `_toList`.
- `Resolver`: the filter loop of `_getObjects`.
- `VmFilter`: `_getVmObjects`.
- `Networks`: `_getNetworkObjects` and `_addVmNic`.
- `Compute`: `_modifyCompute`.
- `Disks`: `_getVmDiskObject`, `_addVmStorage`, `_addVmDisk` and `_removeDevice`.
- `Snapshots`: the snapshot chain in `_getListVmRow`, `_listVmSnapshot` and `_snapshot`.
- `Tags`: `_addVmTag` and `_removeVmTag`.
- `Tasks`: `_waitOnTask`.
- `Lifecycle`: `_power`, `_destroy`, `_shutdown`, `_clone` and the renames of `_change`.

The task budgets are constants in `Tasks`:

- 42 polls by default, which is also the default of the `--wait` option;
- 1200 polls for a clone.

The shutdown and reboot commands take their guest wait from the same
`--wait` option, 42 seconds by default. The fallback of 120 seconds at
line 4176 of `VCLI-0.2.20.py` applies only to a command without the
option, and both commands have it, so it is never taken.

The follow-up steps of a shutdown take two more settings. `--hot-add`
is an option of the change command only, so `_hotadd` is always `None`
and hot-add is never enabled. The reboot is decided by `main`, which
passes `True` for the reboot command and `False` for the shutdown
command; `_shutdown` reads its `--reboot` option only when it is passed
nothing, so `shutdown --reboot` never powers the VM on again (see
"## Findings"). `Lifecycle.ShutdownSteps` states both.

The shutdown command's `--hw-version` option does two things. Line 4229
upgrades each VM to that version, and `_getVmObjects` (lines 2295-2320)
reads the same option as a filter. So the command only ever selects VMs
that already have the version, and the upgrade names the version they
have (`Lifecycle.HwVersionUpgradeIsNoChange`). What the option was meant
to select is not evident from the code, so this is recorded here and not
as a correction.

## Model

| member | source | states |
|---|---|---|
| `Text.Lower` | VCLI-0.2.20.py:2044-2047 | `str.lower` on ASCII: same length, every character lowered, and the result is lower-case |
| `Text.ReplaceChar` | VCLI-0.2.20.py:2018 | `str.replace` of one character: same length, each occurrence replaced and every other character kept |
| `Text.Split` | VCLI-0.2.20.py:2039 | `str.split(sep)`: at least one piece, empty pieces included, and no piece contains the separator |
| `Text.JoinSplit` | VCLI-0.2.20.py:2039 | joining the pieces of a split with the separator gives back the string |
| `Text.SplitJoin` | VCLI-0.2.20.py:2039 | splitting a join of separator-free pieces gives back the pieces |
| `Text.FirstWord` | VCLI-0.2.20.py:2032-2034 | `line.split()[0]` of a non-blank line: a non-empty word without whitespace |
| `Text.NatToString` | VCLI-0.2.20.py:2205 | the decimal text of a number is a non-empty digit string |
| `Text.ParseNatToString` | VCLI-0.2.20.py:2182-2183 | `int()` of the decimal text of a number is that number |
| `Tokens.FileTokens` | VCLI-0.2.20.py:2028-2035 | a names file gives at most one token per line, each non-empty, and none iff every line is blank or a comment |
| `Tokens.Expand` | VCLI-0.2.20.py:2023-2039 | the expanded list of names never contains an empty token |
| `Tokens.LowerAll` | VCLI-0.2.20.py:2044-2047 | every token lower-cased, in order, none dropped |
| `Tokens.ReplaceJoin` | VCLI-0.2.20.py:2017-2018 | replacing the commas of a comma-joined list by spaces gives the space-joined list |
| `Tokens.ToList` | VCLI-0.2.20.py:2011-2055 | `_toList`, corrected: no names give None; otherwise a non-empty list of non-empty lower-case tokens, or None |
| `Tokens.ToListAsWritten` | VCLI-0.2.20.py:2011-2055 | `_toList` as written: no names give None; otherwise a non-empty list of lower-case tokens, which may be empty strings |
| `Tokens.ExpandDropsOnlyEmpty` | VCLI-0.2.20.py:2023-2039 | the corrected expansion is the loop as written with its empty pieces dropped, nothing else changed |
| `Tokens.ToListAgreesWithoutEmptyPieces` | VCLI-0.2.20.py:2023-2053 | where the loop as written yields no empty piece, both versions of `_toList` agree |
| `Tokens.TrailingCommaAsWritten` | VCLI-0.2.20.py:2039 | as written, the list item "web," yields the tokens "web" and "" |
| `Tokens.TrailingCommaDropped` | VCLI-0.2.20.py:2024-2026 | with empty pieces dropped, the list item "web," yields "web" only |
| `Tokens.ExpandPlain` | VCLI-0.2.20.py:2023-2039 | plain tokens that name no file expand to themselves |
| `Tokens.CommaListRoundTrip` | VCLI-0.2.20.py:2017-2018 | a comma-joined string of plain lower-case tokens comes back as exactly those tokens |
| `Resolver.SelectorFor` | VCLI-0.2.20.py:2060-2071 | a string becomes a one-token lower-cased list; no names or an empty list keep everything; exact matching needs names and a true `match` |
| `Resolver.Resolve` | VCLI-0.2.20.py:2142-2169 | a name is a key iff some kept object has it, and it maps to the last kept object of that name |
| `Resolver.ResolveKeepAll` | VCLI-0.2.20.py:2065-2071 | with no names every fetched object's name is a key |
| `Resolver.KeepsMonotonic` | VCLI-0.2.20.py:2144-2157 | an object kept with some tokens is kept with any superset of them, in either mode |
| `Resolver.ResolveMonotonic` | VCLI-0.2.20.py:2142-2167 | adding tokens never removes a resolved name |
| `Resolver.ExactWithinPartial` | VCLI-0.2.20.py:2144-2157 | every name an exact search resolves, a substring search with the same tokens resolves too |
| `Resolver.EmptyTokenKeepsAll` | VCLI-0.2.20.py:2150-2155 | an empty token in substring mode keeps every object |
| `VmFilter.VmxLabelParses` | VCLI-0.2.20.py:2295-2297 | the digits of `vmx-{:02d}` read back as the version |
| `VmFilter.VmxLabelExamples` | VCLI-0.2.20.py:2297 | versions below 10 are zero-padded: `vmx-09`, `vmx-13` |
| `VmFilter.VmxLabelInjective` | VCLI-0.2.20.py:2319-2320 | distinct hardware versions give distinct labels |
| `VmFilter.Judge` | VCLI-0.2.20.py:2306-2343 | a kept VM has a guest id and the requested template flag; the cluster filter raises only for a VM without a host |
| `VmFilter.FilterVms` | VCLI-0.2.20.py:2306-2346 | the result is a sub-dictionary of the resolved VMs, holding exactly those every filter keeps; it is None iff the cluster filter raises |
| `VmFilter.TemplatesExcludedByDefault` | VCLI-0.2.20.py:2303-2304 | without the template option no template is selected |
| `VmFilter.NoOptionsKeepsPlainVms` | VCLI-0.2.20.py:2306-2343 | a VM with a guest id that is not a template passes when no option is given |
| `VmFilter.PowerOption` | VCLI-0.2.20.py:2329-2332 | the power option drops exactly the powered-off VMs when true, and exactly the powered-on ones when false |
| `VmFilter.SuspendedSurvivesPowerOption` | VCLI-0.2.20.py:2329-2332 | a suspended VM passes either power option |
| `VmFilter.SnapshotOption` | VCLI-0.2.20.py:2322-2325 | the snapshot option keeps a VM iff its snapshot presence is the one asked for |
| `VmFilter.OsOption` | VCLI-0.2.20.py:2308-2315 | "linux" keeps a guest iff its id lacks "win", "windows" iff it has it, any other value keeps every guest |
| `VmFilter.HwVersionOption` | VCLI-0.2.20.py:2295-2320 | the hardware-version option keeps a VM iff its version is the zero-padded `vmx-NN` label |
| `VmFilter.ConsolidateOption` | VCLI-0.2.20.py:2327-2328 | the consolidate option keeps a VM iff its consolidation flag is the one asked for |
| `VmFilter.ClusterOption` | VCLI-0.2.20.py:2334-2335 | the cluster option raises iff the VM has no host, and keeps it iff its cluster name contains the option, case-insensitively |
| `VmFilter.HostOption` | VCLI-0.2.20.py:2337-2341 | the host option never raises, and keeps a VM iff its host name contains the option, case-insensitively |
| `VmFilter.HostLookupFailureExcludes` | VCLI-0.2.20.py:2337-2341 | a VM whose host cannot be read is excluded by the host option |
| `VmFilter.SelectVms` | VCLI-0.2.20.py:2281-2346 | `_getVmObjects` on the corrected `_toList`: every VM selected is a fetched VM, under its own name, that every filter keeps; with no names, every kept VM whose name is not reused later is selected |
| `VmFilter.SelectExactIsNamed` | VCLI-0.2.20.py:2281-2286 | with exact matching every selected VM is named by a token through its lower-cased name or its id |
| `Networks.NetworkObjects` | VCLI-0.2.20.py:2174-2197 | without a VLAN or key filter, exactly the networks the name search returns; with one, it raises iff a named network is a standard network, and otherwise keeps exactly the named port groups whose VLAN or key is the one asked for; every network returned is a fetched one |
| `Networks.NumericNetworkIsVlan` | VCLI-0.2.20.py:2182-2195 | an all-digit network string is a VLAN id whatever the match mode: every network returned is a port group with that VLAN, every uniquely named port group with it is returned, the search succeeds when every network is a port group, and it raises when a uniquely named standard network exists |
| `Networks.StandardNetworkBreaksVlanSearch` | VCLI-0.2.20.py:2187-2193 | a VLAN search for "100" raises in an inventory that holds the standard network "VM Network", and succeeds without it |
| `Networks.AddVmNic` | VCLI-0.2.20.py:3392-3406 | ambiguity is reported only when the count of networks is not one; a crash needs a standard network in the inventory; an added adapter takes its key and switch from a fetched port group |
| `Networks.PickNic` | VCLI-0.2.20.py:3396-3406 | ambiguity iff the search returned a number of networks other than one; one standard network raises, one port group gives its key and switch |
| `Networks.ExactMatchWins` | VCLI-0.2.20.py:3392-3406 | a single exact match is used without the substring search; it raises when that match is a standard network |
| `Networks.SubstringFallback` | VCLI-0.2.20.py:3393-3398 | when the exact search finds nothing, the substring search decides: its crash is the command's, one port group is used, any other count is rejected |
| `Compute.ModifyCompute` | VCLI-0.2.20.py:3218-3270 | nothing is requested iff there is neither a CPU nor a memory value; a submitted spec enables CPU and memory hot-add, changes something, and does not reduce a powered-on VM |
| `Compute.SubmittedIffGuardPasses` | VCLI-0.2.20.py:3230-3267 | for a known action the spec is submitted iff no powered-on reduction is asked for and a value changes, and it carries the new values |
| `Compute.SetOnlyPositive` | VCLI-0.2.20.py:3233-3235 | `set` replaces a value only with a positive delta |
| `Compute.SetIdempotent` | VCLI-0.2.20.py:3233-3235 | `set` twice with the same value equals `set` once |
| `Compute.RemoveUndoesAdd` | VCLI-0.2.20.py:3236-3241 | removing what was just added restores a positive allocation |
| `Compute.RemoveTooMuchYieldsDelta` | VCLI-0.2.20.py:3239-3241 | removing at least the whole allocation yields the delta, which is never less than before |
| `Compute.RemoveCanGrow` | VCLI-0.2.20.py:3240 | a powered-off VM with 2 CPUs asked to lose 4 is set to 4 CPUs |
| `Compute.HelpTextExamples` | VCLI-0.2.20.py:514-517 | the help text's examples: adding 2 CPUs and 6 GB to 1 CPU and 4096 MB gives 3 and 10240; removing 1 CPU and 2 GB (the example at lines 671-674) is refused while powered on and gives 2 and 8192 when off |
| `Disks.LastDisk` | VCLI-0.2.20.py:2207-2217 | the position of a disk with no disk after it, or None when there is no disk |
| `Disks.FirstLabelled` | VCLI-0.2.20.py:2207-2224 | the first disk carrying the label, or None when none does |
| `Disks.FindDisk` | VCLI-0.2.20.py:2199-2226 | the disk found is a disk, and with an id it carries the label `Hard disk N` |
| `Disks.FindDiskIsFirstLabelled` | VCLI-0.2.20.py:2219-2224 | with an id the first labelled disk is found |
| `Disks.FindDiskIsLast` | VCLI-0.2.20.py:2211-2217 | without an id the last disk is found |
| `Disks.FindVmDisk` | VCLI-0.2.20.py:2205-2226 | the device loop finds the same disk as the reference definition |
| `Disks.GrowDisk` | VCLI-0.2.20.py:3450-3477 | the growth outcome for each input: no change, a shrink, a missing disk or a thick disk is rejected; otherwise the edit keeps key, controller and unit, is whole GB, is the truncated capacity plus the size, and exceeds the old capacity |
| `Disks.GrowWholeGB` | VCLI-0.2.20.py:3466-3477 | a disk of whole GB grows by exactly the size asked for |
| `Disks.GrowExamples` | VCLI-0.2.20.py:3450-3477 | a thin 60 GB disk grown by 10 GB becomes 70 GB; a shrink and a thick disk are refused unless thick is allowed |
| `Disks.RemoveDiskRequest` | VCLI-0.2.20.py:4051-4066 | removal fails iff no disk carries the label; otherwise a labelled disk is removed |
| `Disks.NextUnit` | VCLI-0.2.20.py:3336-3339 | the next unit is above the last disk's and never 7 |
| `Disks.ScanDevices` | VCLI-0.2.20.py:3329-3344 | the loop stops iff a file disk sits at unit 15 or above; otherwise the unit follows the last file disk and the controller is the last on the bus |
| `Disks.PlanAddDisk` | VCLI-0.2.20.py:3314-3366 | the add-disk outcome for each input: a full controller, a missing controller, no disk at all, or a spec with the unit after the last file disk, the last controller on the bus, and the requested size, provisioning and mode |
| `Disks.LocatorSplits` | VCLI-0.2.20.py:3377 | the `bus:unit` string splits back into bus and unit |
| `Disks.AddDiskReturn` | VCLI-0.2.20.py:3340-3379 | nothing is returned iff the controller is full or missing; the unbound unit of a VM without a file disk is a crash, not a return; a successful add returns the locator of the new disk; a failed one returns the task state |
| `Disks.AddDiskExample` | VCLI-0.2.20.py:3336-3377 | one file disk at unit 6 on bus 0 puts the new disk at "0:8" |
| `Snapshots.Chain` | VCLI-0.2.20.py:1968-1971 | the chain starts at the node, steps to first children, and ends at a leaf |
| `Snapshots.ChainUnique` | VCLI-0.2.20.py:3126-3135 | every walk that follows first children to a leaf is the chain |
| `Snapshots.VmChain` | VCLI-0.2.20.py:1966-1968 | a VM's chain is empty iff it has no root snapshot and otherwise starts at the first root |
| `Snapshots.CountSnapshots` | VCLI-0.2.20.py:1966-1973 | no count without a root; otherwise the count is the chain's length |
| `Snapshots.Seconds` | VCLI-0.2.20.py:3128 | the creation time up to the first dot: a dot-free prefix |
| `Snapshots.ListSnapshots` | VCLI-0.2.20.py:3122-3137 | no total without a root; otherwise one row per chain node, in order, and the total is the row count |
| `Snapshots.FindInChain` | VCLI-0.2.20.py:4280-4290 | the first chain position with the id, or None when no node has it |
| `Snapshots.FindById` | VCLI-0.2.20.py:4278-4290 | the walk fails without a root, finds the first node with the id, or reports that none has it |
| `Snapshots.SelectionFor` | VCLI-0.2.20.py:4263-4270 | remove, revert and merge force exact matching and the snapshot filter; consolidate forces the consolidation filter |
| `Snapshots.SnapshotRequestAsWritten` | VCLI-0.2.20.py:4279-4319 | the id walk fails iff an id is given for a VM without snapshots |
| `Snapshots.SnapshotRequest` | VCLI-0.2.20.py:4294-4319 | whole-VM calls only without an id; a single-snapshot call only for an id on the chain, removing children; an unknown id submits nothing; a new snapshot is without memory or quiescing |
| `Snapshots.SnapshotRequestAgrees` | VCLI-0.2.20.py:4303-4317 | both versions agree when the id is absent or on the chain |
| `Snapshots.SelectedVmsDoNotCrash` | VCLI-0.2.20.py:4263-4280 | the VMs selected for remove, revert and merge have a root snapshot, so the walk cannot fail |
| `Snapshots.ThreeSnapshotChain` | VCLI-0.2.20.py:1966-1973 | a three-node chain is walked in order and counted as 3 |
| `Snapshots.ThreeSnapshotLookups` | VCLI-0.2.20.py:4278-4290 | lookups on a three-node chain find each id and miss an unknown one |
| `Snapshots.UnknownIdRemovesAll` | VCLI-0.2.20.py:4303-4317 | as written an unknown id removes all snapshots or reverts to the current one; corrected it submits nothing |
| `Tags.Matching` | VCLI-0.2.20.py:3508-3522 | the matching tags are catalog tags whose lowered name is a token and whose category contains the hint, and all of them |
| `Tags.CollectTags` | VCLI-0.2.20.py:3506-3532 | the tag loop succeeds iff the keys of the matching tags are distinct, and then collects them in catalog order |
| `Tags.ResolveTags` | VCLI-0.2.20.py:3506-3536 | tags resolve iff their keys are distinct, to exactly the matching catalog tags |
| `Tags.HintKeysCollide` | VCLI-0.2.20.py:3527 | with a category hint, equal tag names give equal keys whatever the real category |
| `Tags.FirstConflict` | VCLI-0.2.20.py:3556-3567 | the first attached tag of the same category and cardinality with another name, or None |
| `Tags.Without` | VCLI-0.2.20.py:3567 | detaching removes exactly that tag from the attached ones |
| `Tags.WithTag` | VCLI-0.2.20.py:3569-3570 | attaching adds exactly that tag to the attached ones |
| `Tags.AttachOne` | VCLI-0.2.20.py:3553-3570 | one tag on one VM: attach only, or detach of one conflicting tag then attach; afterwards the tag is attached and nothing else changed |
| `Tags.AttachOneShape` | VCLI-0.2.20.py:3553-3570 | one tag's steps attach exactly that tag, any detach right before it |
| `Tags.OnlyFirstConflictDetached` | VCLI-0.2.20.py:3556-3567 | of two conflicting tags only the first is detached |
| `Tags.HighlanderPreserved` | VCLI-0.2.20.py:3553-3570 | attaching one tag keeps at most one tag per SINGLE category |
| `Tags.AttachAll` | VCLI-0.2.20.py:3545-3570 | the tag loop attaches every tag once, in order, and detaches only right before attaching a conflicting SINGLE-category tag |
| `Tags.HighlanderPreservedAll` | VCLI-0.2.20.py:3545-3570 | the loop keeps at most one tag per SINGLE category |
| `Tags.SecondSingleTagReplacesFirst` | VCLI-0.2.20.py:3553-3570 | two tags of one SINGLE category: the second replaces the first |
| `Tags.AttachAllWithin` | VCLI-0.2.20.py:3545-3570 | after the loop only tags attached before or being attached are attached |
| `Tags.ApplyTags` | VCLI-0.2.20.py:3543-3570 | the VM loop leaves every other VM's tags unchanged, and each selected VM (distinct ids, as dictionary keys are) ends with the tags the tag loop leaves on its own attachments |
| `Tags.ApplyTagsEffects` | VCLI-0.2.20.py:3543-3570 | the attach and detach calls of the command are every selected VM's tag-loop steps, VM after VM, each from its own attachments |
| `Tags.OnVm` | VCLI-0.2.20.py:3543-3570 | each attach or detach of a VM's step list is done on that VM |
| `Tags.EffectsOnSelectedVms` | VCLI-0.2.20.py:3543-3570 | every attach and detach is on a selected VM |
| `Tags.HighlanderEveryVm` | VCLI-0.2.20.py:3543-3570 | every VM keeps at most one tag per SINGLE category |
| `Tags.AddVmTag` | VCLI-0.2.20.py:3493-3570 | attaches iff there are tokens, some VM and matching tags with distinct keys, and then runs the VM loop on exactly those tags; a duplicate key is ambiguity; no matching tag is "not found"; no VM with found tags is "VM not found"; no tag list with a non-empty catalog raises |
| `Tags.RemoveEntries` | VCLI-0.2.20.py:4100-4118 | the per-VM dictionary maps a key to its tag when one matching attached tag has it, and to None when several do |
| `Tags.DetachedIffUnique` | VCLI-0.2.20.py:4126-4132 | a tag is detached iff it is the only matching attached tag with its key |
| `Tags.RemovePlan` | VCLI-0.2.20.py:4100-4132 | the tags detached from a VM are exactly the sole holders of their keys |
| `Tags.AmbiguousKeySkipped` | VCLI-0.2.20.py:4114-4117 | a key held by two matching tags detaches no tag with that key |
| `Tags.UniqueKeyDetached` | VCLI-0.2.20.py:4126-4132 | a matching attached tag alone with its key is detached |
| `Tags.RemoveVmTag` | VCLI-0.2.20.py:4092-4132 | nothing to do without VMs; no tag list raises iff some selected VM has a tag; otherwise each selected VM's plan is exactly `RemovePlan` of its attached tags (ambiguous keys skipped, every other matching tag detached), or nothing without a tag list |
| `Tasks.PollCount` | VCLI-0.2.20.py:2362-2366 | the number of polls lies between the start and the budget |
| `Tasks.WaitOnTask` | VCLI-0.2.20.py:2348-2383 | a missing task is not polled; at most `wait` polls; no sleep after a terminal state; an early stop follows a terminal read; the state returned is read after the loop |
| `Tasks.PollCountCharacterised` | VCLI-0.2.20.py:2362-2366 | the poll count is the only count within budget that stops exactly at the first terminal read |
| `Tasks.WaitMatchesPollCount` | VCLI-0.2.20.py:2362-2371 | the loop polls as often as the reference count says and returns the state read after it |
| `Tasks.ReportOf` | VCLI-0.2.20.py:2371-2381 | success and error are reported as such, an error with its message then its faults |
| `Tasks.SuccessOnThirdPoll` | VCLI-0.2.20.py:2362-2371 | a task that succeeds on the third read is polled 3 times with 2 sleeps |
| `Tasks.TimeoutAfterBudget` | VCLI-0.2.20.py:2353-2371 | a running task with a 5-poll budget is polled 5 times and returned as running |
| `Lifecycle.PowerRequest` | VCLI-0.2.20.py:4153-4163 | each power call iff its transition is allowed: start from off, resume from suspended, stop or suspend from on, reset from any state |
| `Lifecycle.PowerActionsIdempotent` | VCLI-0.2.20.py:4153-4161 | every call but reset changes the state, and repeating the action afterwards submits nothing |
| `Lifecycle.SuspendedOnlyResumes` | VCLI-0.2.20.py:4153-4163 | a suspended VM is only resumed or reset |
| `Lifecycle.DestroyPlan` | VCLI-0.2.20.py:3908-3918 | the VMs before the first powered-on one are destroyed; the batch aborts iff some VM is powered on |
| `Lifecycle.UpgradeLabelMatchesFilter` | VCLI-0.2.20.py:4226-4229 | for the accepted versions the upgrade label equals the hardware-version filter's label |
| `Lifecycle.HwVersionUpgradeIsNoChange` | VCLI-0.2.20.py:4178-4229 | with `--hw-version`, every VM the shutdown command selects is already at that version, and the upgrade it requests names that same version |
| `Lifecycle.PostSteps` | VCLI-0.2.20.py:4212-4234 | hot-add, upgrade to latest, upgrade to a version and power-on each happen iff their resolved setting is on, and power-on comes last |
| `Lifecycle.RebootAsWritten` | VCLI-0.2.20.py:4370-4372 | as written, the VM is powered on again iff the command is `reboot`, whatever the shutdown command's `--reboot` says |
| `Lifecycle.ShutdownRebootFlagIgnored` | VCLI-0.2.20.py:4180 | as written, `shutdown --reboot` does not power the VM on again |
| `Lifecycle.Reboot` | VCLI-0.2.20.py:4180 | corrected: power on again iff the command is `reboot`, or it is `shutdown` with `--reboot` |
| `Lifecycle.RebootAgreesUnlessFlag` | VCLI-0.2.20.py:4180 | the correction changes the outcome exactly for `shutdown --reboot` |
| `Lifecycle.ShutdownSteps` | VCLI-0.2.20.py:4178-4234 | the follow-up steps of the two commands: hot-add never, the upgrade iff `--upgrade-hw`, power-on iff the corrected reboot holds |
| `Lifecycle.ShutdownVm` | VCLI-0.2.20.py:4176-4234 | an off VM is skipped, a failed request skips the VM; the wait sleeps only while on and within the `--wait` budget; a VM still on is skipped; otherwise the follow-up calls are made |
| `Lifecycle.ShutdownExample` | VCLI-0.2.20.py:4201-4234 | with the default wait of 42, a guest off at the second read is waited on once and powered on again |
| `Lifecycle.BackupNameInjective` | VCLI-0.2.20.py:3851 | one user at one time gives distinct VMs distinct backup names |
| `Lifecycle.CloneOne` | VCLI-0.2.20.py:3839-3857 | a clone never targets an existing name; a backup clones an existing VM to its backup name without power-on, and does so whenever the VM exists and the backup name is free; a backup of a missing VM is reported iff the name is not found; a clone from a source is powered on, and happens whenever the target name is free |
| `Lifecycle.ClonePlan` | VCLI-0.2.20.py:3817-3857 | a source that the VM lookup resolves to no VM or several stops the command; one VM found under another name raises; otherwise each name is handled in order |
| `Lifecycle.TemplateSourceNotFound` | VCLI-0.2.20.py:3821-3823 | a source that only templates match is never found: the lookup keeps no template, so the command stops with "clone source not found" |
| `VmFilter.OnlyTemplatesLeaveNothing` | VCLI-0.2.20.py:2303-2316 | without the template option, a dictionary of templates filters down to nothing |
| `VmFilter.TemplatesNeverSelected` | VCLI-0.2.20.py:2281-2316 | without the template option, a lookup whose names resolve only to templates selects no VM at all |
| `Lifecycle.SourceSpelledDifferently` | VCLI-0.2.20.py:3821-3825 | the source `WEB` finds the VM `web` and raises on the lookup by key; the source `web` clones it |
| `Lifecycle.BackupTargetsDistinct` | VCLI-0.2.20.py:3845-3857 | backups of distinct VMs never target the same name and are not powered on |
| `Lifecycle.BackupExample` | VCLI-0.2.20.py:536-541 | the help text's backup of server4 by user1 is named `server4.cloned.by.user1.20191214` |
| `Lifecycle.RenamesOf` | VCLI-0.2.20.py:3610-3620 | a VM gets one rename for a new name and one for an append, both on that VM |
| `Lifecycle.Renames` | VCLI-0.2.20.py:3608-3620 | with only an append, each VM is renamed once, to its own name plus the suffix |
| `Lifecycle.AppendKeepsNamesDistinct` | VCLI-0.2.20.py:3614-3620 | with only an append, distinct VM names get distinct new names |
| `Lifecycle.RenamesAsWritten` | VCLI-0.2.20.py:3608-3620 | the rename loop as written: every rename is on a VM of the loop; without an append, each VM is renamed to the new name; with one, two renames per VM except the first VM when no new name is given |
| `Lifecycle.AppendLeaks` | VCLI-0.2.20.py:3608-3620 | as written, with only an append, every VM after the first is first renamed to the name the previous rename gave |
| `Lifecycle.AppendLeaksAcrossVms` | VCLI-0.2.20.py:3608-3620 | as written, the second of two VMs is renamed to the first VM's new name and then given a double suffix |

## Left out

- Session login, retries and the vAPI login: network I/O and credentials.
- YAML configuration, the constructor's probing, and the user name and timestamp it computes: I/O, so both are parameters of the clone plan.
- The argparse surface and help text. Option defaults that matter are constants or parameters.
- The AES helpers: they depend on a foreign library.
- Printing, the list, info and vMotion displays, and the cluster usage percentages: formatting and floating point.
- Remote calls: they are returned as requests or steps, never executed. Whether a rename, clone or detach succeeds on the server is not modelled.
- `time.sleep`: counted as polls and sleeps.
- The names-file branch of `_toList`: the file system is an oracle map from path to lines.
- Python 2 dictionary order: dictionaries are iterated in insertion order, and VMs are passed in the order the tool visits them.
- `Text.Lower`: ASCII only, with no Unicode case mapping.
- The `match` option override in `_getObjects` (line 2062): `-m/--match` exists only for the list, consolidate and snapshot commands, and the override applies only when the caller passes a match value. Remove, revert and merge pass one but have no `-m`, add and consolidate define `-m` but pass no match value, and the other modelled commands have no `-m` either, so `-m` is never read and the caller's value always decides.
- NIC removal (`_getVmNicObject`, the `nic` branch of `_removeDevice`): it searches port groups per adapter through further remote lookups and is not part of this model.
- `_migrate`, `_remove`, `_add` and the non-name options of `_change`: these dispatchers only call the modelled operations or make remote calls.
- `Lifecycle.ClonePlan`: the source lookup's result is a parameter; `Lifecycle.TemplateSourceNotFound` ties it to `VmFilter.SelectVms`. The clone command's help offers a template as a source (line 1521), but the lookup drops every template, so such a source is reported as not found; what was intended is not evident, so no correction is modelled.
- `Lifecycle.ClonePlan`: stops at the clone requests. It leaves out the relocation and configuration spec of `_cloneVm`, the re-lookup of the clone, and the `--include-tag` copying.
- `Tags.OnVm`: the contract states only which VM each effect is on; the order of the steps is stated by `Tags.AttachAll`.
- `Tasks.WaitOnTask`: models one read of the task state per poll. The source reads it twice, once for a debug line and once for the test.
- `Lifecycle.PowerRequest`: takes one power state per VM. The source reads it again in each branch of its chain.
- `Lifecycle.RenamesAsWritten`: every rename is taken to succeed. vSphere refuses a name already taken in the folder, and then `_vm.name` keeps the old name, which the append rename extends instead.
- `Lifecycle.Renames`: the contract states only the case of an append without a new name; with a new name each VM is renamed to it and then to it plus the suffix, which only the body states.
- `Networks.NetworkObjects`: a port group's VLAN is one number. A trunk or private VLAN setting, which never equals the number asked for, is not modelled.
- `_add`, `_remove` and the other dispatchers: a crash outcome (`Disks.AddDiskCrash`, `Networks.NetworkCrash`) ends the whole command in the source, including the steps for the remaining VMs. The model stops at the outcome of one VM.
- `Lifecycle.ShutdownVm`: does not model the shutdown request's own task wait, only whether the request raises.

Where the code and the description of the tool differ, the model follows the code:

- The controller for a new disk is the last one on the bus.
- The default disk is the last one.
- The unit number follows the last file disk, not the highest unit.
- Removing more than the current allocation yields the delta.
- An unknown snapshot id falls back to the whole-VM calls; see the findings.

## Findings

| source | as written | input that shows it | evidently intended | confidence | as-written member | corrected member |
|---|---|---|---|---|---|---|
| VCLI-0.2.20.py:2039 | each list item is split on commas and every piece is kept, including empty ones; an empty token is a substring of every name | names given as the list ["web,"]: the tokens are "web" and "", and a substring search selects every object | empty pieces are skipped like empty items, as the check at line 2025 does | medium, not executed | `Tokens.ToListAsWritten`, shown by `Tokens.TrailingCommaAsWritten` and `Resolver.EmptyTokenKeepsAll` | `Tokens.ToList`, with `Tokens.TrailingCommaDropped`, `Tokens.ExpandDropsOnlyEmpty` and `Tokens.CommaListRoundTrip` |
| VCLI-0.2.20.py:4303-4317 | an id that is not on the snapshot chain falls to the branch for "no id": rm-snapshot and merge remove every snapshot, and revert goes to the current snapshot | `--id 9` on a VM with snapshots 1, 2, 3: RemoveAllSnapshots, or RevertToCurrentSnapshot | after "Unable to find snapshot ID", submit nothing for that VM | high, not executed | `Snapshots.SnapshotRequestAsWritten`, shown by `Snapshots.UnknownIdRemovesAll` | `Snapshots.SnapshotRequest`, with `Snapshots.SnapshotRequestAgrees` |
| VCLI-0.2.20.py:3608-3620 | `_newName` is assigned by the append branch and survives into the next iteration, so each later VM is first renamed to the previous VM's new name | `change --append bak vm1 vm2`: renames (vm1→vm1.bak), (vm2→vm1.bak), then (vm2→vm1.bak.bak) if vSphere took the duplicate name, or (vm2→vm2.bak) if it refused it | each VM renamed to its own name plus the suffix: vm1.bak, vm2.bak | high, not executed | `Lifecycle.RenamesAsWritten`, shown by `Lifecycle.AppendLeaks` and `Lifecycle.AppendLeaksAcrossVms` | `Lifecycle.Renames`, with `Lifecycle.AppendKeepsNamesDistinct` |
| VCLI-0.2.20.py:4370-4372 | `main` passes `False` as `reboot` for the shutdown command, and `_shutdown` reads `--reboot` only when `reboot` is `None` (line 4180) | `shutdown --reboot vm1`: the VM is shut down and stays off | the VM is powered on again, as the option's help says (line 1620) | high, not executed | `Lifecycle.RebootAsWritten`, shown by `Lifecycle.ShutdownRebootFlagIgnored` | `Lifecycle.Reboot`, with `Lifecycle.RebootAgreesUnlessFlag`, used by `Lifecycle.ShutdownSteps` |

=== FILE: compute.dfy ===
/**
 * `_modifyCompute`: the CPU and memory change behind `add`, `remove` and
 * `change`. The new values are computed from the VM's current allocation,
 * a powered-on VM may not lose CPU or memory, and a reconfiguration is
 * submitted only when something changes.
 */
module Compute {
  import opened Wrappers
  import opened Inventory

  datatype Mode = SetMode | AddMode | RemoveMode

  /** The action strings the source accepts, with their aliases. */
  function ModeOf(action: string): Option<Mode> {
    if action == "set" then Some(SetMode)
    else if action == "add" then Some(AddMode)
    else if action in ["delete", "del", "remove", "rm"] then Some(RemoveMode)
    else None
  }

  /**
   * The new value of one dimension. Removing more than the current value
   * yields the delta itself rather than zero.
   */
  function NewValue(mode: Mode, current: int, delta: int): int {
    match mode
    case SetMode => if delta > 0 then delta else current
    case AddMode => current + delta
    case RemoveMode => if current > delta then current - delta else delta
  }

  /** The `vim.vm.ConfigSpec` fields the tool sets. */
  datatype ComputeSpec = ComputeSpec(numCpus: int, memoryMB: int,
                                     cpuHotAddEnabled: bool, memoryHotAddEnabled: bool)

  datatype ComputeOutcome =
    | NothingRequested            // neither CPU nor memory given
    | UnknownAction               // the source fails on an unbound variable
    | CannotReduceCpu
    | CannotReduceMemory
    | NoChange
    | Reconfigure(spec: ComputeSpec)

  /** Memory is given in GB and held in MB. */
  function MemoryDeltaMB(memoryGB: Option<int>): int {
    if memoryGB.Some? then memoryGB.value * 1024 else 0
  }

  function ModifyCompute(vm: Vm, action: string, cpu: Option<int>, memoryGB: Option<int>): (r: ComputeOutcome)
    ensures cpu.None? && memoryGB.None? <==> r == NothingRequested
    ensures r == UnknownAction ==> ModeOf(action).None?
    ensures r.CannotReduceCpu? || r.CannotReduceMemory? ==> vm.power == PoweredOn
    ensures r.Reconfigure? ==>
      && r.spec.cpuHotAddEnabled && r.spec.memoryHotAddEnabled
      && (r.spec.numCpus != vm.numCpu || r.spec.memoryMB != vm.memoryMB)
      && (vm.power == PoweredOn ==> r.spec.numCpus >= vm.numCpu && r.spec.memoryMB >= vm.memoryMB)
  {
    if cpu.None? && memoryGB.None? then NothingRequested
    else if ModeOf(action).None? then UnknownAction
    else
      var mode := ModeOf(action).value;
      var cpuNew := NewValue(mode, vm.numCpu, cpu.GetOr(0));
      var memNew := NewValue(mode, vm.memoryMB, MemoryDeltaMB(memoryGB));
      if vm.power == PoweredOn && cpuNew < vm.numCpu then CannotReduceCpu
      else if vm.power == PoweredOn && memNew < vm.memoryMB then CannotReduceMemory
      else if cpuNew == vm.numCpu && memNew == vm.memoryMB then NoChange
      else Reconfigure(ComputeSpec(cpuNew, memNew, true, true))
  }

  /**
   * For a recognised action with something to change, the request is
   * submitted exactly when the guard passes: no reduction while powered on,
   * and at least one dimension differs. The spec then carries the new values.
   */
  lemma SubmittedIffGuardPasses(vm: Vm, action: string, cpu: Option<int>, memoryGB: Option<int>)
    requires ModeOf(action).Some? && (cpu.Some? || memoryGB.Some?)
    ensures var mode := ModeOf(action).value;
            var cpuNew := NewValue(mode, vm.numCpu, cpu.GetOr(0));
            var memNew := NewValue(mode, vm.memoryMB, MemoryDeltaMB(memoryGB));
            var r := ModifyCompute(vm, action, cpu, memoryGB);
            && (r.Reconfigure? <==>
                  (vm.power == PoweredOn ==> cpuNew >= vm.numCpu && memNew >= vm.memoryMB) &&
                  (cpuNew != vm.numCpu || memNew != vm.memoryMB))
            && (r.Reconfigure? ==> r.spec == ComputeSpec(cpuNew, memNew, true, true))
  {
  }

  /** `set` replaces only a dimension given with a positive value. */
  lemma SetOnlyPositive(current: int, delta: int)
    ensures delta > 0 ==> NewValue(SetMode, current, delta) == delta
    ensures delta <= 0 ==> NewValue(SetMode, current, delta) == current
  {
  }

  /** `set` with the same value twice is the same as once. */
  lemma SetIdempotent(current: int, delta: int)
    ensures NewValue(SetMode, NewValue(SetMode, current, delta), delta) == NewValue(SetMode, current, delta)
  {
  }

  /** Removing what was just added gives back a positive allocation. */
  lemma RemoveUndoesAdd(current: int, delta: int)
    requires current > 0
    ensures NewValue(RemoveMode, NewValue(AddMode, current, delta), delta) == current
  {
  }

  /** Removing at least the whole allocation leaves the delta, which may be more than before. */
  lemma RemoveTooMuchYieldsDelta(current: int, delta: int)
    requires current <= delta
    ensures NewValue(RemoveMode, current, delta) == delta
    ensures NewValue(RemoveMode, current, delta) >= current
  {
  }

  /** A powered-off VM with 2 CPUs asked to lose 4 is reconfigured to 4 CPUs. */
  lemma RemoveCanGrow()
    ensures ModifyCompute(Vm("s", "vm-1", PoweredOff, 2, 4096, None, false, "vmx-13", [], false, None, []),
                          "remove", Some(4), None)
         == Reconfigure(ComputeSpec(4, 4096, true, true))
  {
  }

  function ExampleServer(power: PowerState, cpu: int, memoryMB: int): Vm {
    Vm("server4", "vm-4", power, cpu, memoryMB, Some("rhel7_64Guest"), false, "vmx-13", [], false, None, [])
  }

  /** The worked examples of the `add` and `remove` help text. */
  lemma HelpTextExamples()
    ensures ModifyCompute(ExampleServer(PoweredOn, 1, 4096), "add", Some(2), Some(6))
         == Reconfigure(ComputeSpec(3, 10240, true, true))
    ensures ModifyCompute(ExampleServer(PoweredOn, 3, 10240), "delete", Some(1), Some(2))
         == CannotReduceCpu
    ensures ModifyCompute(ExampleServer(PoweredOff, 3, 10240), "delete", Some(1), Some(2))
         == Reconfigure(ComputeSpec(2, 8192, true, true))
  {
  }
}

=== FILE: disks.dfy ===
/**
 * Disk logic: `_getVmDiskObject` (which disk a disk id names),
 * `_addVmStorage` (growing a disk), `_addVmDisk` (the SCSI unit number of
 * a new disk) and the disk branch of `_removeDevice`. Sizes are given in
 * GB and held in KB.
 */
module Disks {
  import opened Wrappers
  import opened Text
  import opened Inventory
  import opened Tasks

  /** The label vSphere gives the disk with id `id`. */
  function DiskLabel(id: int): string {
    "Hard disk " + IntToString(id)
  }

  predicate Labelled(d: Device, id: int) {
    d.VirtualDisk? && d.deviceLabel == DiskLabel(id)
  }

  /** The position of the last virtual disk in device order. */
  function LastDisk(devices: seq<Device>): (r: Option<nat>)
    ensures r.Some? ==> r.value < |devices| && devices[r.value].VirtualDisk?
    ensures r.Some? ==> forall j | r.value < j < |devices| :: !devices[j].VirtualDisk?
    ensures r.None? ==> forall j | 0 <= j < |devices| :: !devices[j].VirtualDisk?
  {
    if devices == [] then None
    else if devices[|devices| - 1].VirtualDisk? then Some(|devices| - 1)
    else LastDisk(devices[..|devices| - 1])
  }

  /** The position of the first disk labelled with `id`, at or after `from`. */
  function FirstLabelled(devices: seq<Device>, id: int, from: nat): (r: Option<nat>)
    requires from <= |devices|
    ensures r.Some? ==> from <= r.value < |devices| && Labelled(devices[r.value], id)
    ensures r.Some? ==> forall j | from <= j < r.value :: !Labelled(devices[j], id)
    ensures r.None? ==> forall j | from <= j < |devices| :: !Labelled(devices[j], id)
    decreases |devices| - from
  {
    if from == |devices| then None
    else if Labelled(devices[from], id) then Some(from)
    else FirstLabelled(devices, id, from + 1)
  }

  /**
   * The disk a disk id names: without an id the last disk, with one the
   * first disk carrying its label.
   */
  function FindDisk(devices: seq<Device>, diskId: Option<int>): (r: Option<nat>)
    ensures r.Some? ==> r.value < |devices| && devices[r.value].VirtualDisk?
    ensures r.Some? && diskId.Some? ==> devices[r.value].deviceLabel == DiskLabel(diskId.value)
  {
    if diskId.None? then LastDisk(devices) else FirstLabelled(devices, diskId.value, 0)
  }

  /** Any disk labelled with the id and preceded by no other such disk is the one found. */
  lemma FindDiskIsFirstLabelled(devices: seq<Device>, id: int, i: nat)
    requires i < |devices| && Labelled(devices[i], id)
    requires forall j | 0 <= j < i :: !Labelled(devices[j], id)
    ensures FindDisk(devices, Some(id)) == Some(i)
  {
  }

  /** Without an id, a disk followed by no other disk is the one found. */
  lemma FindDiskIsLast(devices: seq<Device>, i: nat)
    requires i < |devices| && devices[i].VirtualDisk?
    requires forall j | i < j < |devices| :: !devices[j].VirtualDisk?
    ensures FindDisk(devices, None) == Some(i)
  {
  }

  /**
   * The device loop of `_getVmDiskObject`: non-disks are skipped; without an
   * id every disk replaces the previous choice, with one the first disk
   * with the label ends the loop.
   */
  method FindVmDisk(devices: seq<Device>, diskId: Option<int>) returns (r: Option<nat>)
    ensures r == FindDisk(devices, diskId)
  {
    r := None;
    var i := 0;
    while i < |devices|
      invariant 0 <= i <= |devices|
      invariant diskId.None? ==> r == LastDisk(devices[..i])
      invariant diskId.Some? ==> r.None? && forall j | 0 <= j < i :: !Labelled(devices[j], diskId.value)
    {
      assert devices[..i + 1][..i] == devices[..i];
      if !devices[i].VirtualDisk? {
        i := i + 1;
        continue;
      }
      if diskId.None? {
        r := Some(i);
        i := i + 1;
        continue;
      }
      if devices[i].deviceLabel == DiskLabel(diskId.value) {
        r := Some(i);
        return;
      }
      i := i + 1;
    }
    assert devices[..i] == devices;
  }

  const KBPerGB := 1024 * 1024

  /** The edit spec of a grown disk: same key, controller and unit, new capacity. */
  datatype DiskEdit = DiskEdit(key: int, controllerKey: int, unitNumber: nat, capacityKB: int)

  datatype GrowOutcome =
    | SizeUnchanged        // a size of zero
    | ShrinkUnsupported    // a negative size
    | DiskNotFound
    | ThickDisk            // a thick disk without the override
    | ExtendDisk(edit: DiskEdit)

  /**
   * `_addVmStorage`: grows the disk by `size` GB, counted from its capacity
   * truncated to whole GB.
   */
  function GrowDisk(devices: seq<Device>, size: int, diskId: Option<int>, thick: bool): (r: GrowOutcome)
    ensures r == SizeUnchanged <==> size == 0
    ensures r == ShrinkUnsupported <==> size < 0
    ensures r == DiskNotFound <==> size > 0 && FindDisk(devices, diskId).None?
    ensures r == ThickDisk <==>
      size > 0 && FindDisk(devices, diskId).Some? && !devices[FindDisk(devices, diskId).value].thin && !thick
    ensures r.ExtendDisk? ==>
      && size > 0 && FindDisk(devices, diskId).Some?
      && var d := devices[FindDisk(devices, diskId).value];
         && (d.thin || thick)
         && r.edit.key == d.key && r.edit.controllerKey == d.controllerKey && r.edit.unitNumber == d.unitNumber
         && r.edit.capacityKB % KBPerGB == 0
         && d.capacityKB - KBPerGB < r.edit.capacityKB - size * KBPerGB <= d.capacityKB
         && r.edit.capacityKB > d.capacityKB
  {
    if size == 0 then SizeUnchanged
    else if size < 0 then ShrinkUnsupported
    else
      match FindDisk(devices, diskId)
      case None => DiskNotFound
      case Some(i) =>
        var d := devices[i];
        if !d.thin && !thick then ThickDisk
        else
          var newSizeGB := d.capacityKB / 1024 / 1024 + size;
          ExtendDisk(DiskEdit(d.key, d.controllerKey, d.unitNumber, newSizeGB * 1024 * 1024))
  }

  /** A disk of a whole number of GB grows by exactly the size asked for. */
  lemma GrowWholeGB(devices: seq<Device>, size: int, diskId: Option<int>, thick: bool)
    requires GrowDisk(devices, size, diskId, thick).ExtendDisk?
    requires devices[FindDisk(devices, diskId).value].capacityKB % KBPerGB == 0
    ensures GrowDisk(devices, size, diskId, thick).edit.capacityKB
         == devices[FindDisk(devices, diskId).value].capacityKB + size * KBPerGB
  {
    var c := devices[FindDisk(devices, diskId).value].capacityKB;
    var q := c / KBPerGB;
    assert c == (q * 1024) * 1024;
    ExactDivision(q * 1024);
    ExactDivision(q);
    assert c / 1024 / 1024 == q;
    assert (q + size) * 1024 * 1024 == c + size * KBPerGB;
  }

  lemma ExactDivision(a: int)
    ensures (a * 1024) / 1024 == a
  {
  }

  function ExampleDisk(id: int, capacityGB: nat, thin: bool): Device {
    VirtualDisk(2000 + id, DiskLabel(id), 1000, 0, capacityGB * KBPerGB, thin, true)
  }

  /** A thin 60 GB disk grown by 10 GB becomes 70 GB; shrinking and thick disks are refused. */
  lemma GrowExamples()
    ensures GrowDisk([ExampleDisk(1, 60, true)], 10, Some(1), false)
         == ExtendDisk(DiskEdit(2001, 1000, 0, 70 * KBPerGB))
    ensures GrowDisk([ExampleDisk(1, 60, true)], -5, Some(1), false) == ShrinkUnsupported
    ensures GrowDisk([ExampleDisk(1, 60, false)], 10, None, false) == ThickDisk
    ensures GrowDisk([ExampleDisk(1, 60, false)], 10, None, true)
         == ExtendDisk(DiskEdit(2001, 1000, 0, 70 * KBPerGB))
  {
    assert FindDisk([ExampleDisk(1, 60, true)], Some(1)) == Some(0);
  }

  datatype RemoveOutcome = DeviceNotFound | RemoveDevice(key: int)

  /** The disk branch of `_removeDevice`: the disk named by the id, if any, is removed. */
  function RemoveDiskRequest(devices: seq<Device>, diskId: int): (r: RemoveOutcome)
    ensures r.DeviceNotFound? <==> forall j | 0 <= j < |devices| :: !Labelled(devices[j], diskId)
    ensures r.RemoveDevice? ==> exists j | 0 <= j < |devices| :: Labelled(devices[j], diskId) && devices[j].key == r.key
  {
    match FindDisk(devices, Some(diskId))
    case None => DeviceNotFound
    case Some(i) => RemoveDevice(devices[i].key)
  }

  /** A disk whose backing is a file: the disks `_addVmDisk` counts. */
  predicate IsFileDisk(d: Device) {
    d.VirtualDisk? && d.fileBacked
  }

  predicate IsBusController(d: Device, bus: int) {
    d.ScsiController? && d.busNumber == bus
  }

  /** The unit after `u`, skipping 7, which the SCSI controller holds. */
  function NextUnit(u: nat): (r: nat)
    ensures r > u && r != 7
  {
    if u + 1 == 7 then 8 else u + 1
  }

  /** The spec of a new disk. */
  datatype NewDisk = NewDisk(busNumber: int, unitNumber: nat, controllerKey: int, capacityKB: int,
                             thin: bool, diskMode: string, eagerlyScrub: bool)

  datatype AddDiskOutcome =
    | ControllerFull                   // a file disk already sits at unit 15 or above
    | ControllerNotFound               // no SCSI controller on the bus
    | UnitUnbound                      // no file disk: the source fails on an unbound variable
    | CreateDisk(spec: NewDisk)

  /** `i` is the last file disk among the first `n` devices. */
  predicate LastFileDiskIn(devices: seq<Device>, n: int, i: int)
    requires n <= |devices|
  {
    0 <= i < n && IsFileDisk(devices[i]) && forall k | i < k < n :: !IsFileDisk(devices[k])
  }

  /** `i` is the last controller on `bus` among the first `n` devices. */
  predicate LastControllerIn(devices: seq<Device>, bus: int, n: int, i: int)
    requires n <= |devices|
  {
    0 <= i < n && IsBusController(devices[i], bus) && forall k | i < k < n :: !IsBusController(devices[k], bus)
  }

  predicate NoFileDiskIn(devices: seq<Device>, n: int)
    requires n <= |devices|
  {
    forall k | 0 <= k < n :: !IsFileDisk(devices[k])
  }

  predicate NoControllerIn(devices: seq<Device>, bus: int, n: int)
    requires n <= |devices|
  {
    forall k | 0 <= k < n :: !IsBusController(devices[k], bus)
  }

  predicate HasFullUnit(devices: seq<Device>) {
    exists i | 0 <= i < |devices| :: IsFileDisk(devices[i]) && devices[i].unitNumber >= 15
  }

  /**
   * The device loop of `_addVmDisk`. It stops at the first file disk at
   * unit 15 or above; otherwise the unit comes from the last file disk,
   * not the highest unit, and the controller is the last one on the bus.
   */
  method ScanDevices(devices: seq<Device>, bus: int) returns (full: bool, unit: Option<nat>, controller: Option<nat>)
    ensures full <==> HasFullUnit(devices)
    ensures !full ==> (unit.None? <==> NoFileDiskIn(devices, |devices|))
    ensures !full && unit.Some? ==>
      exists i :: LastFileDiskIn(devices, |devices|, i) && unit.value == NextUnit(devices[i].unitNumber)
    ensures !full ==> (controller.None? <==> NoControllerIn(devices, bus, |devices|))
    ensures !full && controller.Some? ==> LastControllerIn(devices, bus, |devices|, controller.value)
  {
    unit := None;
    controller := None;
    ghost var diskAt := 0;
    var i := 0;
    while i < |devices|
      invariant 0 <= i <= |devices|
      invariant forall j | 0 <= j < i :: !(IsFileDisk(devices[j]) && devices[j].unitNumber >= 15)
      invariant unit.None? <==> NoFileDiskIn(devices, i)
      invariant unit.Some? ==> LastFileDiskIn(devices, i, diskAt) && unit.value == NextUnit(devices[diskAt].unitNumber)
      invariant controller.None? <==> NoControllerIn(devices, bus, i)
      invariant controller.Some? ==> LastControllerIn(devices, bus, i, controller.value)
    {
      var d := devices[i];
      if IsFileDisk(d) {
        var u := d.unitNumber + 1;
        if u == 7 {
          u := u + 1;
        } else if u >= 16 {
          return true, unit, controller;
        }
        unit := Some(u);
        diskAt := i;
      }
      if IsBusController(d, bus) {
        controller := Some(i);
      }
      i := i + 1;
    }
    full := false;
  }

  /** `_addVmDisk` up to the submitted spec. */
  method PlanAddDisk(devices: seq<Device>, sizeGB: int, bus: int, independent: bool, thick: bool)
    returns (r: AddDiskOutcome)
    ensures r == ControllerFull <==> HasFullUnit(devices)
    ensures r == ControllerNotFound <==> !HasFullUnit(devices) && NoControllerIn(devices, bus, |devices|)
    ensures r == UnitUnbound <==>
      !HasFullUnit(devices) && !NoControllerIn(devices, bus, |devices|) && NoFileDiskIn(devices, |devices|)
    ensures r.CreateDisk? ==>
      && (exists i :: LastFileDiskIn(devices, |devices|, i) && r.spec.unitNumber == NextUnit(devices[i].unitNumber))
      && (exists j :: LastControllerIn(devices, bus, |devices|, j) && r.spec.controllerKey == devices[j].key)
      && 1 <= r.spec.unitNumber <= 15 && r.spec.unitNumber != 7
      && r.spec.busNumber == bus
      && r.spec.capacityKB == sizeGB * KBPerGB
      && r.spec.thin == !thick
      && r.spec.diskMode == (if independent then "independent_persistent" else "persistent")
      && r.spec.eagerlyScrub == independent
  {
    var full, unit, controller := ScanDevices(devices, bus);
    if full {
      return ControllerFull;
    }
    if controller.None? {
      return ControllerNotFound;
    }
    if unit.None? {
      return UnitUnbound;
    }
    var c := devices[controller.value];
    var mode := if independent then "independent_persistent" else "persistent";
    r := CreateDisk(NewDisk(c.busNumber, unit.value, c.key, sizeGB * 1024 * 1024, !thick, mode, independent));
  }

  /** `'{0}:{1}'.format(bus, unit)`: where the new disk sits. */
  function Locator(bus: int, unit: int): string {
    IntToString(bus) + ":" + IntToString(unit)
  }

  lemma NoColonInNumber(i: int)
    ensures ':' !in IntToString(i)
  {
    var s := NatToString(if i < 0 then -i else i);
    assert forall k | 0 <= k < |s| :: IsDigit(s[k]);
  }

  /** The locator splits back into the bus and the unit. */
  lemma LocatorSplits(bus: int, unit: int)
    ensures Split(Locator(bus, unit), ':') == [IntToString(bus), IntToString(unit)]
  {
    NoColonInNumber(bus);
    NoColonInNumber(unit);
    SplitPrefix(IntToString(bus), IntToString(unit), ':');
    SplitNoSep(IntToString(unit), ':');
  }

  /** What `_addVmDisk` returns. */
  datatype AddDiskResult =
    | NoDiskTask                       // `return None`: a full or a missing controller
    | AddDiskCrash                     // the unbound unit number raises, ending the whole command
    | DiskTaskEnded(state: TaskState)
    | DiskAt(locator: string)

  /**
   * The return value once the reconfiguration has ended in `final`: the
   * locator on success, the state otherwise, nothing when the loop found
   * the controller full or missing. Without a file disk no return value
   * is reached: building the spec raises.
   */
  function AddDiskReturn(r: AddDiskOutcome, final: TaskState): (res: AddDiskResult)
    ensures res.NoDiskTask? <==> r == ControllerFull || r == ControllerNotFound
    ensures res.AddDiskCrash? <==> r == UnitUnbound
    ensures res.DiskAt? <==> r.CreateDisk? && final.Success?
    ensures res.DiskTaskEnded? ==> r.CreateDisk? && res.state == final && !final.Success?
    ensures res.DiskAt? ==> Split(res.locator, ':') == [IntToString(r.spec.busNumber), IntToString(r.spec.unitNumber)]
  {
    if r == UnitUnbound then AddDiskCrash
    else if !r.CreateDisk? then NoDiskTask
    else if final.Success? then
      LocatorSplits(r.spec.busNumber, r.spec.unitNumber);
      DiskAt(Locator(r.spec.busNumber, r.spec.unitNumber))
    else DiskTaskEnded(final)
  }

  /** A VM with one file disk at unit 6 on controller 0 gets its new disk at "0:8". */
  method AddDiskExample() returns (res: AddDiskResult)
    ensures res == DiskAt("0:8")
  {
    var devices := [ScsiController(1000, 0), VirtualDisk(2000, "Hard disk 1", 1000, 6, KBPerGB, true, true)];
    var r := PlanAddDisk(devices, 20, 0, false, false);
    assert !HasFullUnit(devices);
    assert LastFileDiskIn(devices, 2, 1);
    assert LastControllerIn(devices, 0, 2, 0);
    res := AddDiskReturn(r, Success);
    assert Locator(0, 8) == "0:8";
  }
}

=== FILE: inventory.dfy ===
/**
 * Plain records for the remote managed objects the tool reads. Each one
 * holds only the properties the decision logic looks at; the remote
 * reference itself is reduced to its `name` and managed-object id.
 */
module Inventory {
  import opened Wrappers

  datatype PowerState = PoweredOn | PoweredOff | Suspended

  /** The entries of `config.hardware.device` that the tool distinguishes. */
  datatype Device =
    | VirtualDisk(key: int, deviceLabel: string, controllerKey: int, unitNumber: nat,
                  capacityKB: nat, thin: bool, fileBacked: bool)
    | ScsiController(key: int, busNumber: int)
    | EthernetCard(key: int, deviceLabel: string)
    | OtherDevice(key: int, deviceLabel: string)

  /**
   * A node of the snapshot tree as vSphere reports it. The tool only ever
   * follows `children[0]`, so siblings are carried but never visited.
   */
  datatype Snapshot = Snapshot(id: int, createTime: string, name: string,
                               description: string, children: seq<Snapshot>)

  /** The VM's current host and the name of that host's parent cluster. */
  datatype Host = Host(name: string, clusterName: string)

  datatype Vm = Vm(
    name: string,
    moId: string,
    power: PowerState,
    numCpu: int,
    memoryMB: int,
    guestId: Option<string>,        // None when the property is unset
    template: bool,
    version: string,                // e.g. "vmx-13"
    rootSnapshots: seq<Snapshot>,   // empty when the VM has no snapshot
    consolidationNeeded: bool,
    host: Option<Host>,             // None when the host cannot be looked up
    devices: seq<Device>)

  /**
   * A network as the property collector returns it: a distributed port
   * group, with its key, default VLAN and switch, or a standard network,
   * which has none of the three.
   */
  datatype Network =
    | PortGroup(key: string, vlanId: int, switchUuid: string)
    | StandardNetwork
}

=== FILE: lifecycle.dfy ===
/**
 * The lifecycle guards: `_power` (which transitions are submitted),
 * `_destroy` (the batch stops at the first powered-on VM), `_shutdown`
 * (guest shutdown, a bounded wait for power-off, then the optional
 * follow-up calls), the clone and backup naming of `_clone`, and the
 * rename loop of `_change`.
 */
module Lifecycle {
  import opened Wrappers
  import opened Text
  import opened Inventory
  import Tasks
  import VmFilter
  import Resolver
  import Tokens

  datatype PowerOp = PowerOn | PowerOff | Suspend | Reset

  /** The call `_power` makes for one VM, if any. */
  function PowerRequest(action: string, state: PowerState): (r: Option<PowerOp>)
    ensures r == Some(PowerOn) <==>
      (action in ["on", "start"] && state == PoweredOff) || (action == "resume" && state == Suspended)
    ensures r == Some(PowerOff) <==> action in ["off", "stop"] && state == PoweredOn
    ensures r == Some(Suspend) <==> action in ["pause", "suspend"] && state == PoweredOn
    ensures r == Some(Reset) <==> action == "reset"
  {
    if action in ["on", "start"] && state == PoweredOff then Some(PowerOn)
    else if action == "resume" && state == Suspended then Some(PowerOn)
    else if action in ["off", "stop"] && state == PoweredOn then Some(PowerOff)
    else if action in ["pause", "suspend"] && state == PoweredOn then Some(Suspend)
    else if action == "reset" then Some(Reset)
    else None
  }

  /** The power state a successful call leaves behind. */
  function After(op: PowerOp, state: PowerState): PowerState {
    match op
    case PowerOn => PoweredOn
    case PowerOff => PoweredOff
    case Suspend => Suspended
    case Reset => state
  }

  /**
   * Every submitted transition other than reset changes the state, and
   * asking again once it has taken effect submits nothing: the power
   * actions other than reset are idempotent.
   */
  lemma PowerActionsIdempotent(action: string, state: PowerState)
    requires PowerRequest(action, state).Some? && PowerRequest(action, state) != Some(Reset)
    ensures After(PowerRequest(action, state).value, state) != state
    ensures PowerRequest(action, After(PowerRequest(action, state).value, state)).None?
  {
  }

  /** A suspended VM can only be resumed or reset. */
  lemma SuspendedOnlyResumes(action: string)
    requires action != "resume" && action != "reset"
    ensures PowerRequest(action, Suspended).None?
  {
  }

  /**
   * The loop of `_destroy`: VMs are destroyed in order until the first
   * powered-on one, where the whole command stops. `destroyed` is the
   * number of VMs destroyed.
   */
  method DestroyPlan(powers: seq<PowerState>) returns (destroyed: nat, aborted: bool)
    ensures destroyed <= |powers|
    ensures forall k | 0 <= k < destroyed :: powers[k] != PoweredOn
    ensures aborted <==> destroyed < |powers|
    ensures aborted ==> powers[destroyed] == PoweredOn
    ensures aborted <==> PoweredOn in powers
  {
    destroyed := 0;
    while destroyed < |powers|
      invariant destroyed <= |powers|
      invariant forall k | 0 <= k < destroyed :: powers[k] != PoweredOn
    {
      if powers[destroyed] == PoweredOn {
        return destroyed, true;
      }
      destroyed := destroyed + 1;
    }
    return destroyed, false;
  }

  /** The calls `_shutdown` makes after a successful power-off, in order. */
  datatype PostStep = EnableHotAdd | UpgradeLatest | UpgradeTo(version: string) | PowerOnAgain

  datatype ShutdownOutcome =
    | AlreadyOff
    | ToolsUnavailable          // the shutdown request raised
    | StillOn(sleeps: nat)      // still powered on after the wait
    | ShutDown(sleeps: nat, steps: seq<PostStep>)

  /**
   * The power state as `_shutdown` observes it after the shutdown
   * request: `observed[k]` is the k-th read, and `settled` every later one.
   */
  datatype PowerTrace = PowerTrace(observed: seq<PowerState>, settled: PowerState)

  function PowerAt(trace: PowerTrace, k: nat): PowerState {
    if k < |trace.observed| then trace.observed[k] else trace.settled
  }

  /** `'vmx-{0}'.format(v)`: the hardware version the shutdown command upgrades to. */
  function UpgradeLabel(v: int): string {
    "vmx-" + IntToString(v)
  }

  /**
   * The shutdown command only accepts versions 10 to 14, for which the
   * upgrade label is the label the hardware-version filter matches.
   */
  lemma UpgradeLabelMatchesFilter(v: int)
    requires 10 <= v
    ensures UpgradeLabel(v) == VmFilter.VmxLabel(v)
  {
  }

  /**
   * The same `--hw-version` option both selects and upgrades: the VMs the
   * shutdown command selects already have the version, so the upgrade it
   * then requests names the version each VM already has.
   */
  lemma HwVersionUpgradeIsNoChange(names: Resolver.NameArg, files: Tokens.Files, exactMatch: Option<bool>,
                                   fetched: seq<Resolver.Entry<Vm>>, f: VmFilter.Filter, v: int,
                                   hotAdd: bool, upgradeHw: bool, reboot: bool)
    requires f.hwVersion == Some(v) && 10 <= v
    ensures var sel := VmFilter.SelectVms(names, files, exactMatch, fetched, f);
      sel.Some? ==> forall k | k in sel.value ::
        && sel.value[k].obj.version == UpgradeLabel(v)
        && UpgradeTo(sel.value[k].obj.version) in PostSteps(hotAdd, upgradeHw, Some(v), reboot)
  {
    UpgradeLabelMatchesFilter(v);
  }

  function PostSteps(hotAdd: bool, upgradeHw: bool, vmx: Option<int>, reboot: bool): (r: seq<PostStep>)
    ensures EnableHotAdd in r <==> hotAdd
    ensures UpgradeLatest in r <==> upgradeHw
    ensures PowerOnAgain in r <==> reboot
    ensures vmx.Some? ==> UpgradeTo(UpgradeLabel(vmx.value)) in r
    ensures forall k | 0 <= k < |r| && r[k].UpgradeTo? :: vmx.Some? && r[k].version == UpgradeLabel(vmx.value)
    ensures reboot ==> r[|r| - 1] == PowerOnAgain
  {
    (if hotAdd then [EnableHotAdd] else [])
    + (if upgradeHw then [UpgradeLatest] else [])
    + (if vmx.Some? then [UpgradeTo(UpgradeLabel(vmx.value))] else [])
    + (if reboot then [PowerOnAgain] else [])
  }

  /**
   * How `_shutdown` settles `_reboot`: the option `--reboot` is read only
   * when the caller passes no value; an unset option is no reboot.
   */
  function ResolveReboot(passed: Option<bool>, option: Option<bool>): (r: bool)
    ensures passed.Some? ==> r == passed.value
    ensures passed.None? ==> (r <==> option == Some(true))
  {
    if passed.None? then option == Some(true) else passed.value
  }

  /**
   * The reboot of the shutdown and reboot commands as written: `main`
   * passes `True` for `reboot` and `False` for `shutdown`, never `None`,
   * so the shutdown command's own `--reboot` option is never read.
   */
  function RebootAsWritten(command: string, flag: bool): (r: bool)
    ensures r <==> command == "reboot"
  {
    ResolveReboot(Some(command == "reboot"), if command == "shutdown" then Some(flag) else None)
  }

  /** As written, `shutdown --reboot` does not power the VM on again. */
  lemma ShutdownRebootFlagIgnored()
    ensures !RebootAsWritten("shutdown", true)
    ensures RebootAsWritten("reboot", false)
  {
  }

  /**
   * The reboot as the option's help promises: `main` passes `None` for the
   * shutdown command, so `--reboot` decides there.
   */
  function Reboot(command: string, flag: bool): (r: bool)
    ensures r <==> command == "reboot" || (command == "shutdown" && flag)
  {
    ResolveReboot(if command == "reboot" then Some(true) else None, if command == "shutdown" then Some(flag) else None)
  }

  /** The correction changes only `shutdown --reboot`. */
  lemma RebootAgreesUnlessFlag(command: string, flag: bool)
    ensures Reboot(command, flag) != RebootAsWritten(command, flag) <==> command == "shutdown" && flag
  {
  }

  /**
   * The follow-up steps of the shutdown and reboot commands. Neither has a
   * `--hot-add` option (only `change` does), so `_hotadd` is `None` and
   * hot-add is never enabled; the reboot is the corrected one.
   */
  function ShutdownSteps(command: string, flag: bool, upgradeHw: bool, vmx: Option<int>): (r: seq<PostStep>)
    ensures EnableHotAdd !in r
    ensures UpgradeLatest in r <==> upgradeHw
    ensures PowerOnAgain in r <==> command == "reboot" || (command == "shutdown" && flag)
  {
    PostSteps(false, upgradeHw, vmx, Reboot(command, flag))
  }

  /**
   * `_shutdown` for one VM. The wait loop reads the power state before
   * each sleep and stops at the first read that is not powered on or when
   * the budget is spent; the state read after the loop decides. `wait`
   * is the `--wait` option, which both the shutdown and the reboot
   * command inherit with its default of 42, so the fallback of 120 for a
   * command without the option is never taken.
   */
  method ShutdownVm(initial: PowerState, toolsAvailable: bool, trace: PowerTrace, wait: int,
                    hotAdd: bool, upgradeHw: bool, vmx: Option<int>, reboot: bool) returns (r: ShutdownOutcome)
    ensures r == AlreadyOff <==> initial == PoweredOff
    ensures r == ToolsUnavailable <==> initial != PoweredOff && !toolsAvailable
    ensures r.StillOn? || r.ShutDown? ==>
      && r.sleeps <= (if wait < 0 then 0 else wait)
      && (forall k | 0 <= k < r.sleeps :: PowerAt(trace, k) == PoweredOn)
      && (r.sleeps < wait ==> PowerAt(trace, r.sleeps) != PoweredOn)
    ensures r.StillOn? ==> PowerAt(trace, r.sleeps + 1) == PoweredOn
    ensures r.ShutDown? ==> PowerAt(trace, r.sleeps + 1) != PoweredOn && r.steps == PostSteps(hotAdd, upgradeHw, vmx, reboot)
  {
    if initial == PoweredOff {
      return AlreadyOff;
    }
    if !toolsAvailable {
      return ToolsUnavailable;
    }
    var i: nat := 0;
    while PowerAt(trace, i) == PoweredOn && i < wait
      invariant i <= (if wait < 0 then 0 else wait)
      invariant forall k | 0 <= k < i :: PowerAt(trace, k) == PoweredOn
      decreases wait - i
    {
      i := i + 1;
    }
    if PowerAt(trace, i + 1) == PoweredOn {
      return StillOn(i);
    }
    return ShutDown(i, PostSteps(hotAdd, upgradeHw, vmx, reboot));
  }

  /** A guest that is off at the second read, with a reboot asked for, is powered on again. */
  method ShutdownExample() returns (r: ShutdownOutcome)
    ensures r == ShutDown(1, [PowerOnAgain])
  {
    var trace := PowerTrace([PoweredOn], PoweredOff);
    r := ShutdownVm(PoweredOn, true, trace, Tasks.DefaultWait, false, false, None, true);
    assert PowerAt(trace, 0) == PoweredOn;
    assert PowerAt(trace, 1) == PoweredOff;
    assert PostSteps(false, false, None, true) == [PowerOnAgain];
  }

  /** `'{name}.cloned.by.{username}.{ts}'`: the name of a backup clone. */
  function BackupName(name: string, username: string, ts: string): string {
    name + ".cloned.by." + username + "." + ts
  }

  /** Removing a common suffix: the part in front is determined. */
  lemma SuffixCancel(a: string, b: string, suffix: string)
    requires a + suffix == b + suffix
    ensures a == b
  {
    assert |a| == |b|;
    assert a == (a + suffix)[..|a|];
    assert b == (b + suffix)[..|b|];
  }

  /** Distinct VMs backed up by one user at one time get distinct clone names. */
  lemma BackupNameInjective(a: string, b: string, username: string, ts: string)
    requires BackupName(a, username, ts) == BackupName(b, username, ts)
    ensures a == b
  {
    var suffix := ".cloned.by." + username + "." + ts;
    assert BackupName(a, username, ts) == a + suffix;
    assert BackupName(b, username, ts) == b + suffix;
    SuffixCancel(a, b, suffix);
  }

  datatype CloneStep =
    | SourceMissing                      // the source resolves to no VM or several
    | SourceLookupCrash                  // one VM, but not under the name given: the source raises
    | BackupSourceMissing(name: string)
    | TargetExists(target: string)
    | Clone(source: string, target: string, powerOn: bool)

  /** One name of the loop of `_clone`; `existing` holds the names the exact search found. */
  function CloneOne(name: string, source: Option<string>, existing: set<string>, username: string, ts: string): (r: CloneStep)
    ensures r.Clone? ==> r.target !in existing
    ensures r.Clone? ==> r.powerOn == source.Some?
    ensures source.None? && r.Clone? ==> r.source == name && name in existing && r.target == BackupName(name, username, ts)
    ensures source.Some? && r.Clone? ==> r.source == source.value && r.target == name
    ensures r.BackupSourceMissing? <==> source.None? && name !in existing
    ensures source.None? && name in existing && BackupName(name, username, ts) !in existing ==> r.Clone?
    ensures source.Some? && name !in existing ==> r.Clone?
    ensures r.TargetExists? ==> r.target in existing
  {
    if source.None? then
      if name !in existing then BackupSourceMissing(name)
      else
        var target := BackupName(name, username, ts);
        if target in existing then TargetExists(target) else Clone(name, target, false)
    else if name in existing then TargetExists(name)
    else Clone(source.value, name, true)
  }

  /**
   * `_clone` up to the clone requests. A source is looked up first with
   * `_getVmObjects`, by exact match on the lower-cased name or the id and
   * through its filters; `sourceMatches` holds the names it returns. The
   * clone command has no template option, so that lookup drops every
   * template (`TemplateSourceNotFound`). The one VM found is then read
   * back under the source string as given, which raises when the VM's name
   * is spelled differently. The names are then handled one by one.
   */
  function ClonePlan(names: seq<string>, source: Option<string>, sourceMatches: set<string>,
                     existing: set<string>, username: string, ts: string): (r: seq<CloneStep>)
    ensures source.Some? && |sourceMatches| != 1 ==> r == [SourceMissing]
    ensures source.Some? && |sourceMatches| == 1 && source.value !in sourceMatches ==> r == [SourceLookupCrash]
    ensures source.None? || (|sourceMatches| == 1 && source.value in sourceMatches) ==>
      |r| == |names| && forall k | 0 <= k < |names| :: r[k] == CloneOne(names[k], source, existing, username, ts)
  {
    if source.Some? && |sourceMatches| != 1 then [SourceMissing]
    else if source.Some? && source.value !in sourceMatches then [SourceLookupCrash]
    else seq(|names|, k requires 0 <= k < |names| => CloneOne(names[k], source, existing, username, ts))
  }

  /**
   * A clone source that only templates match is never found: the lookup
   * keeps no template, so the command stops with "clone source not found",
   * although the clone command's help offers a template as a source.
   */
  lemma TemplateSourceNotFound(source: string, files: Tokens.Files, fetched: seq<Resolver.Entry<Vm>>,
                               names: seq<string>, existing: set<string>, username: string, ts: string)
    requires VmFilter.AllTemplates(Resolver.Resolve(fetched, Resolver.SelectorFor(
               Tokens.AsNameArg(Tokens.ToList(Resolver.OneName(source), files)), Some(true))))
    ensures var sel := VmFilter.SelectVms(Resolver.OneName(source), files, Some(true), fetched, VmFilter.NoOptions);
      && sel == Some(map[])
      && ClonePlan(names, Some(source), sel.value.Keys, existing, username, ts) == [SourceMissing]
  {
    VmFilter.TemplatesNeverSelected(Resolver.OneName(source), files, Some(true), fetched);
    NoSourceFound(names, source, existing, username, ts);
  }

  /** A source the lookup does not find stops the command before any name. */
  lemma NoSourceFound(names: seq<string>, source: string, existing: set<string>, username: string, ts: string)
    ensures ClonePlan(names, Some(source), {}, existing, username, ts) == [SourceMissing]
  {
    var empty: set<string> := {};
    assert |empty| == 0;
  }

  /** A source given in capitals finds the VM `web` but is not its key. */
  lemma SourceSpelledDifferently()
    ensures ClonePlan(["web2"], Some("WEB"), {"web"}, {"web"}, "user1", "20191214") == [SourceLookupCrash]
    ensures ClonePlan(["web2"], Some("web"), {"web"}, {"web"}, "user1", "20191214") == [Clone("web", "web2", true)]
  {
    assert "WEB" != "web";
    assert |{"web"}| == 1;
    assert "web2" != "web";
  }

  /** A backup run powers nothing on and clones each existing VM to its own new name. */
  lemma BackupTargetsDistinct(names: seq<string>, existing: set<string>, username: string, ts: string, i: int, j: int)
    requires 0 <= i < |names| && 0 <= j < |names| && names[i] != names[j]
    ensures var r := ClonePlan(names, None, {}, existing, username, ts);
      r[i].Clone? && r[j].Clone? ==> r[i].target != r[j].target && !r[i].powerOn
  {
    var r := ClonePlan(names, None, {}, existing, username, ts);
    if r[i].Clone? && r[j].Clone? && r[i].target == r[j].target {
      BackupNameInjective(names[i], names[j], username, ts);
    }
  }

  /** The example of the backup help text: the clone of server4 made by user1. */
  lemma BackupExample()
    ensures ClonePlan(["server4"], None, {}, {"server4"}, "user1", "20191214")
         == [Clone("server4", "server4.cloned.by.user1.20191214", false)]
  {
    assert BackupName("server4", "user1", "20191214") == "server4.cloned.by.user1.20191214";
    assert CloneOne("server4", None, {"server4"}, "user1", "20191214")
        == Clone("server4", "server4.cloned.by.user1.20191214", false);
  }

  /** A rename of the VM at a position in the loop. */
  datatype Rename = Rename(vm: nat, newName: string)

  /**
   * The rename part of the `_change` loop as written: `newName` is a
   * variable of the whole loop, so once `--append` has set it, every
   * later VM is first renamed to the previous VM's new name. `_vm.name`
   * is read after the first rename and is taken to see the new name, that
   * is, the first rename is taken to succeed; vSphere refuses a name that
   * is already taken in the folder, and then the second rename appends to
   * the VM's old name instead.
   */
  function RenamesAsWritten(names: seq<string>, newName: Option<string>, append: Option<string>, from: nat): (r: seq<Rename>)
    requires from <= |names|
    ensures forall k | 0 <= k < |r| :: from <= r[k].vm < |names|
    ensures append.None? ==> |r| == (if newName.Some? then |names| - from else 0)
    ensures append.None? && newName.Some? ==> forall k | 0 <= k < |r| :: r[k] == Rename(from + k, newName.value)
    ensures append.Some? && from < |names| ==> |r| == 2 * (|names| - from) - (if newName.Some? then 0 else 1)
    decreases |names| - from
  {
    if from == |names| then []
    else
      var first := if newName.Some? then [Rename(from, newName.value)] else [];
      var current := if newName.Some? then newName.value else names[from];
      if append.Some? then
        var appended := current + "." + append.value;
        first + [Rename(from, appended)] + RenamesAsWritten(names, Some(appended), append, from + 1)
      else first + RenamesAsWritten(names, newName, append, from + 1)
  }

  /** The renames of one VM: the new name if given, then the append to its current name. */
  function RenamesOf(i: nat, name: string, newName: Option<string>, append: Option<string>): (r: seq<Rename>)
    ensures |r| == (if newName.Some? then 1 else 0) + (if append.Some? then 1 else 0)
    ensures forall k | 0 <= k < |r| :: r[k].vm == i
  {
    var current := if newName.Some? then newName.value else name;
    (if newName.Some? then [Rename(i, newName.value)] else [])
    + (if append.Some? then [Rename(i, current + "." + append.value)] else [])
  }

  /** The rename loop with the new name kept per VM. */
  function Renames(names: seq<string>, newName: Option<string>, append: Option<string>, from: nat): (r: seq<Rename>)
    requires from <= |names|
    ensures newName.None? && append.Some? ==>
      |r| == |names| - from && forall k | 0 <= k < |r| :: r[k] == Rename(from + k, names[from + k] + "." + append.value)
    decreases |names| - from
  {
    if from == |names| then [] else RenamesOf(from, names[from], newName, append) + Renames(names, newName, append, from + 1)
  }

  /** With only an append, distinct VM names get distinct new names. */
  lemma AppendKeepsNamesDistinct(names: seq<string>, append: string, i: int, j: int)
    requires 0 <= i < |names| && 0 <= j < |names| && names[i] != names[j]
    ensures var r := Renames(names, None, Some(append), 0);
      r[i].newName != r[j].newName
  {
    var r := Renames(names, None, Some(append), 0);
    var a, b, suffix := names[i], names[j], "." + append;
    assert r[0 + i] == Rename(0 + i, a + "." + append);
    assert r[0 + j] == Rename(0 + j, b + "." + append);
    assert a + "." + append == a + suffix;
    assert b + "." + append == b + suffix;
    if a + suffix == b + suffix {
      SuffixCancel(a, b, suffix);
    }
  }

  /**
   * As written, with only an append, every VM after the first is first
   * renamed to the name the rename before gave: at each odd position the
   * next VM takes over the previous new name.
   */
  lemma {:induction false} AppendLeaks(names: seq<string>, a: string)
    requires |names| >= 1
    ensures var r := RenamesAsWritten(names, None, Some(a), 0);
      && |r| == 2 * |names| - 1
      && r[0] == Rename(0, names[0] + "." + a)
      && forall j | 1 <= j < |r| && j % 2 == 1 :: r[j] == Rename((j + 1) / 2, r[j - 1].newName)
  {
    var n := names[0] + "." + a;
    var r := RenamesAsWritten(names, None, Some(a), 0);
    var rest := RenamesAsWritten(names, Some(n), Some(a), 1);
    assert r == [Rename(0, n)] + rest;
    LeakFrom(names, n, a, 1);
    forall j | 1 <= j < |r| && j % 2 == 1 ensures r[j] == Rename((j + 1) / 2, r[j - 1].newName) {
      assert r[j] == rest[j - 1];
      if j == 1 {
        assert rest[0] == Rename(1, n);
      } else {
        assert r[j - 1] == rest[j - 2];
        assert (j - 1) % 2 == 0 && (j + 1) / 2 == 1 + (j - 1) / 2;
      }
    }
  }

  /** From position `from` on, with a carried-over new name `n`: each VM is renamed to the previous new name. */
  lemma {:induction false} LeakFrom(names: seq<string>, n: string, a: string, from: nat)
    requires 1 <= from <= |names|
    ensures var r := RenamesAsWritten(names, Some(n), Some(a), from);
      from < |names| ==>
        && r[0] == Rename(from, n)
        && forall j | 2 <= j < |r| && j % 2 == 0 :: r[j] == Rename(from + j / 2, r[j - 1].newName)
    decreases |names| - from
  {
    if from < |names| {
      var n' := n + "." + a;
      var rest := RenamesAsWritten(names, Some(n'), Some(a), from + 1);
      var r := RenamesAsWritten(names, Some(n), Some(a), from);
      assert r == [Rename(from, n), Rename(from, n')] + rest;
      LeakFrom(names, n', a, from + 1);
      forall j | 2 <= j < |r| && j % 2 == 0 ensures r[j] == Rename(from + j / 2, r[j - 1].newName) {
        assert r[j] == rest[j - 2];
        if j >= 4 {
          assert r[j - 1] == rest[j - 3];
          assert (j - 2) % 2 == 0 && from + j / 2 == from + 1 + (j - 2) / 2;
        }
      }
    }
  }

  /**
   * Two VMs with `--append bak`: as written the second VM is first renamed
   * to the first VM's new name, then to that name with a second suffix.
   */
  lemma AppendLeaksAcrossVms()
    ensures RenamesAsWritten(["vm1", "vm2"], None, Some("bak"), 0)
         == [Rename(0, "vm1.bak"), Rename(1, "vm1.bak"), Rename(1, "vm1.bak.bak")]
    ensures Renames(["vm1", "vm2"], None, Some("bak"), 0) == [Rename(0, "vm1.bak"), Rename(1, "vm2.bak")]
  {
    var names := ["vm1", "vm2"];
    assert "vm1" + "." + "bak" == "vm1.bak";
    assert "vm2" + "." + "bak" == "vm2.bak";
    assert "vm1.bak" + "." + "bak" == "vm1.bak.bak";
    assert RenamesAsWritten(names, Some("vm1.bak.bak"), Some("bak"), 2) == [];
    assert RenamesAsWritten(names, Some("vm1.bak"), Some("bak"), 1)
        == [Rename(1, "vm1.bak"), Rename(1, "vm1.bak.bak")];
    assert RenamesAsWritten(names, None, Some("bak"), 0)
        == [Rename(0, "vm1.bak")] + RenamesAsWritten(names, Some("vm1.bak"), Some("bak"), 1);
    assert Renames(names, None, Some("bak"), 2) == [];
    assert RenamesOf(1, "vm2", None, Some("bak")) == [Rename(1, "vm2.bak")];
    assert RenamesOf(0, "vm1", None, Some("bak")) == [Rename(0, "vm1.bak")];
  }
}

=== FILE: networks.dfy ===
/**
 * Network selection: `_getNetworkObjects`, which reads an all-digit
 * network string as a VLAN id, and the choice of port group in
 * `_addVmNic`, which tries an exact match before a substring match and
 * needs exactly one result.
 */
module Networks {
  import opened Wrappers
  import opened Text
  import opened Inventory
  import opened Resolver

  /** A one-key dictionary has one key. */
  lemma SingletonKeys<K, V>(m: map<K, V>, a: K, b: K)
    requires |m| == 1 && a in m && b in m
    ensures a == b
  {
    assert |m.Keys - {a}| == 0;
    assert b in m.Keys - {a} || b == a;
  }

  /** A non-empty dictionary has a key. */
  lemma HasKey<K, V>(m: map<K, V>)
    requires |m| > 0
    ensures exists k :: k in m
  {
    assert m.Keys != {};
  }

  /** Whether a network string is read as a VLAN id. */
  predicate NumericNetwork(network: Option<string>, vlanId: Option<int>) {
    vlanId.None? && network.Some? && IsDigits(network.value)
  }

  /** The VLAN the filter loop looks for: the given id, or the network string read as one. */
  function VlanFilter(network: Option<string>, vlanId: Option<int>): Option<int> {
    if NumericNetwork(network, vlanId) then Some(ParseDigits(network.value) as int) else vlanId
  }

  /** The name search: no names when the network string is read as a VLAN id. */
  function NameFilter(network: Option<string>, vlanId: Option<int>): NameArg {
    if NumericNetwork(network, vlanId) || network.None? then NoNames else OneName(network.value)
  }

  /** The networks the name search of `_getObjects` returns. */
  function Named(fetched: seq<Entry<Network>>, network: Option<string>, vlanId: Option<int>,
                 exactMatch: Option<bool>): map<string, Entry<Network>> {
    Resolve(fetched, SelectorFor(NameFilter(network, vlanId), exactMatch))
  }

  /** Whether the filter loop keeps a port group: its VLAN or its key is the one asked for. */
  predicate PassesFilter(n: Network, vlan: Option<int>, pgKey: Option<string>)
    requires n.PortGroup?
  {
    (vlan.Some? && n.vlanId == vlan.value) || (pgKey.Some? && n.key == pgKey.value)
  }

  /** Whether some named network is a standard one. */
  predicate HasStandard(m: map<string, Entry<Network>>) {
    exists k | k in m :: m[k].obj.StandardNetwork?
  }

  /**
   * The networks `_getNetworkObjects` returns, or None when its filter
   * loop reads the VLAN or the key of a standard network, which has
   * neither and raises. Without a VLAN or key filter the name search
   * decides alone.
   */
  function NetworkObjects(fetched: seq<Entry<Network>>, network: Option<string>, vlanId: Option<int>,
                          pgKey: Option<string>, exactMatch: Option<bool>): (r: Option<map<string, Entry<Network>>>)
    ensures var named := Named(fetched, network, vlanId, exactMatch);
            var vlan := VlanFilter(network, vlanId);
            && (r.None? <==> (vlan.Some? || pgKey.Some?) && HasStandard(named))
            && (vlan.None? && pgKey.None? ==> r == Some(named))
            && (r.Some? ==> forall k | k in r.value :: k in named && r.value[k] == named[k])
            && (r.Some? && (vlan.Some? || pgKey.Some?) ==>
                  forall k | k in named :: named[k].obj.PortGroup? &&
                    (k in r.value <==> PassesFilter(named[k].obj, vlan, pgKey)))
    ensures r.None? ==> exists i | 0 <= i < |fetched| :: fetched[i].obj.StandardNetwork?
    ensures r.Some? ==> forall k | k in r.value :: exists i | 0 <= i < |fetched| :: fetched[i] == r.value[k]
  {
    var named := Named(fetched, network, vlanId, exactMatch);
    var vlan := VlanFilter(network, vlanId);
    if vlan.None? && pgKey.None? then Some(named)
    else if HasStandard(named) then
      var k :| k in named && named[k].obj.StandardNetwork?;
      assert exists i :: LastKeptAt(fetched, SelectorFor(NameFilter(network, vlanId), exactMatch), named[k], i);
      None
    else Some(map k | k in named && PassesFilter(named[k].obj, vlan, pgKey) :: named[k])
  }

  /** Entry `i` is the only fetched network with its name. */
  predicate OwnName(fetched: seq<Entry<Network>>, i: int) {
    0 <= i < |fetched| && forall j | 0 <= j < |fetched| :: fetched[j].name == fetched[i].name ==> j == i
  }

  /**
   * An all-digit network string is a VLAN id, whatever the match mode:
   * every port group returned carries that VLAN, every port group with
   * that VLAN and a name of its own is returned, and a standard network
   * anywhere in the inventory makes the search raise.
   */
  lemma NumericNetworkIsVlan(fetched: seq<Entry<Network>>, s: string, exactMatch: Option<bool>)
    requires IsDigits(s)
    ensures NetworkObjects(fetched, Some(s), None, None, exactMatch)
         == NetworkObjects(fetched, Some(s), None, None, None)
    ensures var r := NetworkObjects(fetched, Some(s), None, None, exactMatch);
            r.Some? ==> forall k | k in r.value :: r.value[k].obj.PortGroup? && r.value[k].obj.vlanId == ParseDigits(s)
    ensures var r := NetworkObjects(fetched, Some(s), None, None, exactMatch);
            r.Some? ==> forall i | OwnName(fetched, i) && fetched[i].obj.PortGroup? && fetched[i].obj.vlanId == ParseDigits(s) ::
              fetched[i].name in r.value
    ensures (forall i | 0 <= i < |fetched| :: fetched[i].obj.PortGroup?) ==>
              NetworkObjects(fetched, Some(s), None, None, exactMatch).Some?
    ensures (exists i | OwnName(fetched, i) :: fetched[i].obj.StandardNetwork?) ==>
              NetworkObjects(fetched, Some(s), None, None, exactMatch).None?
  {
    var objs := Resolve(fetched, KeepAll);
    assert Named(fetched, Some(s), None, exactMatch) == objs;
    forall i | OwnName(fetched, i)
      ensures fetched[i].name in objs && objs[fetched[i].name] == fetched[i]
    {
      assert Kept(KeepAll, fetched[i]);
      var j :| LastKeptAt(fetched, KeepAll, objs[fetched[i].name], j);
    }
  }

  /** The example of a VLAN search in an inventory that also holds "VM Network". */
  lemma StandardNetworkBreaksVlanSearch()
    ensures NetworkObjects([Entry("VM Network", "network-1", StandardNetwork),
                            Entry("web", "dvportgroup-2", PortGroup("dvportgroup-2", 100, "50 2a"))],
                           Some("100"), None, None, Some(true)).None?
    ensures NetworkObjects([Entry("web", "dvportgroup-2", PortGroup("dvportgroup-2", 100, "50 2a"))],
                           Some("100"), None, None, Some(true)).Some?
  {
    var fetched := [Entry("VM Network", "network-1", StandardNetwork),
                    Entry("web", "dvportgroup-2", PortGroup("dvportgroup-2", 100, "50 2a"))];
    assert IsDigits("100");
    assert OwnName(fetched, 0);
    NumericNetworkIsVlan(fetched, "100", Some(true));
    NumericNetworkIsVlan([fetched[1]], "100", Some(true));
  }

  datatype NicOutcome =
    | NetworkAmbiguous(found: nat)               // zero or several networks
    | NetworkCrash                               // a standard network's missing attribute read
    | AddNic(portgroupKey: string, switchUuid: string)

  /**
   * `_addVmNic`: exact match first, substring match only when the exact
   * search found nothing, and a new adapter only for exactly one result,
   * which must be a port group: its key and switch are read.
   */
  function AddVmNic(fetched: seq<Entry<Network>>, network: Option<string>, vlanId: Option<int>): (r: NicOutcome)
    ensures r.NetworkAmbiguous? ==> r.found != 1
    ensures r.NetworkCrash? ==> exists i | 0 <= i < |fetched| :: fetched[i].obj.StandardNetwork?
    ensures r.AddNic? ==> exists i | 0 <= i < |fetched| ::
      fetched[i].obj.PortGroup? && fetched[i].obj.key == r.portgroupKey && fetched[i].obj.switchUuid == r.switchUuid
  {
    var exact := NetworkObjects(fetched, network, vlanId, None, Some(true));
    var found := if exact == Some(map[]) then NetworkObjects(fetched, network, vlanId, None, Some(false)) else exact;
    PickNic(fetched, found)
  }

  /** The last step of `_addVmNic`: one network is needed, and it must be a port group. */
  function PickNic(fetched: seq<Entry<Network>>, found: Option<map<string, Entry<Network>>>): (r: NicOutcome)
    requires found.None? ==> exists i | 0 <= i < |fetched| :: fetched[i].obj.StandardNetwork?
    requires found.Some? ==> forall k | k in found.value :: exists i | 0 <= i < |fetched| :: fetched[i] == found.value[k]
    ensures r.NetworkAmbiguous? <==> found.Some? && |found.value| != 1
    ensures r.NetworkAmbiguous? ==> r.found == |found.value|
    ensures r.NetworkCrash? ==> exists i | 0 <= i < |fetched| :: fetched[i].obj.StandardNetwork?
    ensures r.AddNic? ==> exists i | 0 <= i < |fetched| ::
      fetched[i].obj.PortGroup? && fetched[i].obj.key == r.portgroupKey && fetched[i].obj.switchUuid == r.switchUuid
  {
    if found.None? then NetworkCrash
    else if |found.value| != 1 then NetworkAmbiguous(|found.value|)
    else
      HasKey(found.value);
      assert forall a, b | a in found.value && b in found.value :: a == b by {
        forall a, b | a in found.value && b in found.value ensures a == b { SingletonKeys(found.value, a, b); }
      }
      var k :| k in found.value;
      var e := found.value[k];
      FoundIsFetched(fetched, found.value, k);
      if e.obj.StandardNetwork? then NetworkCrash else AddNic(e.obj.key, e.obj.switchUuid)
  }

  /** A network of a search result is a fetched one. */
  lemma FoundIsFetched(fetched: seq<Entry<Network>>, found: map<string, Entry<Network>>, k: string)
    requires forall k' | k' in found :: exists i | 0 <= i < |fetched| :: fetched[i] == found[k']
    requires k in found
    ensures exists i | 0 <= i < |fetched| :: fetched[i] == found[k] && fetched[i].obj == found[k].obj
  {
  }

  /**
   * A single exact match is used even when a substring search would find
   * more; it raises when that match is a standard network.
   */
  lemma ExactMatchWins(fetched: seq<Entry<Network>>, network: Option<string>, vlanId: Option<int>,
                       k: string, e: Entry<Network>)
    requires NetworkObjects(fetched, network, vlanId, None, Some(true)) == Some(map[k := e])
    ensures e.obj.PortGroup? ==> AddVmNic(fetched, network, vlanId) == AddNic(e.obj.key, e.obj.switchUuid)
    ensures e.obj.StandardNetwork? ==> AddVmNic(fetched, network, vlanId) == NetworkCrash
  {
    var found := map[k := e];
    assert AddVmNic(fetched, network, vlanId) == PickNic(fetched, Some(found));
    forall a | a in found ensures a == k { SingletonKeys(found, a, k); }
  }

  /** Only when the exact search finds nothing is the substring search consulted. */
  lemma SubstringFallback(fetched: seq<Entry<Network>>, network: Option<string>, vlanId: Option<int>)
    requires NetworkObjects(fetched, network, vlanId, None, Some(true)) == Some(map[])
    ensures var sub := NetworkObjects(fetched, network, vlanId, None, Some(false));
            sub.None? ==> AddVmNic(fetched, network, vlanId) == NetworkCrash
    ensures var sub := NetworkObjects(fetched, network, vlanId, None, Some(false));
            sub.Some? ==> (AddVmNic(fetched, network, vlanId).NetworkAmbiguous? <==> |sub.value| != 1)
    ensures var sub := NetworkObjects(fetched, network, vlanId, None, Some(false));
            sub.Some? ==> forall k | k in sub.value && |sub.value| == 1 && sub.value[k].obj.PortGroup? ::
              AddVmNic(fetched, network, vlanId) == AddNic(sub.value[k].obj.key, sub.value[k].obj.switchUuid)
  {
    var sub := NetworkObjects(fetched, network, vlanId, None, Some(false));
    if sub.Some? {
      forall k | k in sub.value && |sub.value| == 1 && sub.value[k].obj.PortGroup?
        ensures AddVmNic(fetched, network, vlanId) == AddNic(sub.value[k].obj.key, sub.value[k].obj.switchUuid)
      {
        forall a | a in sub.value ensures a == k { SingletonKeys(sub.value, a, k); }
      }
    }
  }
}

=== FILE: resolver.dfy ===
/**
 * The name filter of `_getObjects`: every object of one type is fetched,
 * each is kept or dropped by comparing its name and managed-object id
 * with the user's tokens, and the survivors are collected in a dictionary
 * keyed by name.
 */
module Resolver {
  import opened Wrappers
  import opened Text

  /** One fetched object: its `name`, its `_moId` and its property record. */
  datatype Entry<T> = Entry(name: string, moId: string, obj: T)

  /** The `names` argument: `None`, one string, or a list of strings. */
  datatype NameArg = NoNames | OneName(s: string) | NameList(items: seq<string>)

  /** What the filter loop does with each fetched object. */
  datatype Selector = KeepAll | Exact(tokens: seq<string>) | Partial(tokens: seq<string>)

  /**
   * The argument normalisation at the top of `_getObjects`: a single
   * string becomes a one-element lower-cased list, an empty list means no
   * names, and exact matching needs both names and a true `match`.
   */
  function SelectorFor(names: NameArg, exactMatch: Option<bool>): (sel: Selector)
    ensures sel.KeepAll? <==> names.NoNames? || (names.NameList? && |names.items| == 0)
    ensures sel.Exact? <==> !sel.KeepAll? && exactMatch == Some(true)
    ensures names.OneName? ==> !sel.KeepAll? && sel.tokens == [Lower(names.s)]
    ensures names.NameList? && !sel.KeepAll? ==> sel.tokens == names.items
  {
    match names
    case NoNames => KeepAll
    case OneName(s) =>
      if exactMatch == Some(true) then Exact([Lower(s)]) else Partial([Lower(s)])
    case NameList(items) =>
      if |items| == 0 then KeepAll
      else if exactMatch == Some(true) then Exact(items) else Partial(items)
  }

  /** Whether the filter loop keeps an object with this name and id. */
  predicate Keeps(sel: Selector, name: string, moId: string) {
    match sel
    case KeepAll => true
    case Exact(ts) => Lower(name) in ts || moId in ts
    case Partial(ts) =>
      exists k | 0 <= k < |ts| :: IsSubstring(Lower(ts[k]), Lower(name)) || Lower(ts[k]) == Lower(moId)
  }

  predicate Kept<T>(sel: Selector, e: Entry<T>) {
    Keeps(sel, e.name, e.moId)
  }

  /** `e`, kept at position `i`, is the last kept object named `e.name`. */
  ghost predicate LastKeptAt<T>(fetched: seq<Entry<T>>, sel: Selector, e: Entry<T>, i: int) {
    && 0 <= i < |fetched|
    && fetched[i] == e
    && Kept(sel, e)
    && forall j | i < j < |fetched| :: fetched[j].name == e.name ==> !Kept(sel, fetched[j])
  }

  /**
   * The dictionary the loop builds: a name is a key exactly when some
   * kept object has it, and it maps to the LAST such object, because a
   * later object with the same name overwrites an earlier one.
   */
  function Resolve<T>(fetched: seq<Entry<T>>, sel: Selector): (r: map<string, Entry<T>>)
    ensures forall name :: name in r <==>
      exists i | 0 <= i < |fetched| :: fetched[i].name == name && Kept(sel, fetched[i])
    ensures forall name | name in r ::
      (r[name].name == name && exists i :: LastKeptAt(fetched, sel, r[name], i))
  {
    if |fetched| == 0 then map[]
    else
      var prefix := fetched[..|fetched| - 1];
      var e := fetched[|fetched| - 1];
      assert fetched == prefix + [e];
      var m := Resolve(prefix, sel);
      ResolveStep(prefix, e, sel, m);
      if Kept(sel, e) then m[e.name := e] else m
  }

  /** One more fetched object: it overwrites its name's entry exactly when it is kept. */
  lemma ResolveStep<T>(prefix: seq<Entry<T>>, e: Entry<T>, sel: Selector, m: map<string, Entry<T>>)
    requires forall name :: name in m <==>
      exists i | 0 <= i < |prefix| :: prefix[i].name == name && Kept(sel, prefix[i])
    requires forall name | name in m :: (m[name].name == name && exists i :: LastKeptAt(prefix, sel, m[name], i))
    ensures var fetched := prefix + [e];
            var r := if Kept(sel, e) then m[e.name := e] else m;
            && (forall name :: name in r <==>
                  exists i | 0 <= i < |fetched| :: fetched[i].name == name && Kept(sel, fetched[i]))
            && (forall name | name in r :: (r[name].name == name && exists i :: LastKeptAt(fetched, sel, r[name], i)))
  {
    var fetched := prefix + [e];
    var r := if Kept(sel, e) then m[e.name := e] else m;
    forall name
      ensures name in r <==> exists i | 0 <= i < |fetched| :: fetched[i].name == name && Kept(sel, fetched[i])
    {
      if name in r {
        if Kept(sel, e) && name == e.name {
          assert fetched[|prefix|] == e;
        } else {
          var i :| 0 <= i < |prefix| && prefix[i].name == name && Kept(sel, prefix[i]);
          assert fetched[i] == prefix[i];
        }
      }
      if exists i | 0 <= i < |fetched| :: fetched[i].name == name && Kept(sel, fetched[i]) {
        var i :| 0 <= i < |fetched| && fetched[i].name == name && Kept(sel, fetched[i]);
        if i < |prefix| {
          assert prefix[i] == fetched[i];
        }
      }
    }
    forall name | name in r
      ensures r[name].name == name && exists i :: LastKeptAt(fetched, sel, r[name], i)
    {
      if Kept(sel, e) && name == e.name {
        assert LastKeptAt(fetched, sel, e, |prefix|);
      } else {
        var i :| LastKeptAt(prefix, sel, m[name], i);
        assert LastKeptAt(fetched, sel, m[name], i);
      }
    }
  }

  /** With no names every fetched object is kept. */
  lemma ResolveKeepAll<T>(fetched: seq<Entry<T>>)
    ensures Resolve(fetched, KeepAll).Keys == set i | 0 <= i < |fetched| :: fetched[i].name
  {
    var r := Resolve(fetched, KeepAll);
    forall name | name in r
      ensures name in set i | 0 <= i < |fetched| :: fetched[i].name
    {
      var i :| 0 <= i < |fetched| && fetched[i].name == name && Kept(KeepAll, fetched[i]);
    }
  }

  /** Every token of `ts` is also a token of `ts'`. */
  predicate Covers(ts: seq<string>, ts': seq<string>) {
    forall t | t in ts :: t in ts'
  }

  lemma KeepsMonotonic(exact: bool, ts: seq<string>, ts': seq<string>, name: string, moId: string)
    requires Covers(ts, ts')
    ensures var sel := if exact then Exact(ts) else Partial(ts);
            var sel' := if exact then Exact(ts') else Partial(ts');
            Keeps(sel, name, moId) ==> Keeps(sel', name, moId)
  {
    if !exact && Keeps(Partial(ts), name, moId) {
      var k :| 0 <= k < |ts| && (IsSubstring(Lower(ts[k]), Lower(name)) || Lower(ts[k]) == Lower(moId));
      assert ts[k] in ts';
      var k' :| 0 <= k' < |ts'| && ts'[k'] == ts[k];
    }
  }

  /** Adding tokens never shrinks the set of resolved names, in either mode. */
  lemma ResolveMonotonic<T>(fetched: seq<Entry<T>>, exact: bool, ts: seq<string>, ts': seq<string>)
    requires Covers(ts, ts')
    ensures var sel := if exact then Exact(ts) else Partial(ts);
            var sel' := if exact then Exact(ts') else Partial(ts');
            Resolve(fetched, sel).Keys <= Resolve(fetched, sel').Keys
  {
    var sel := if exact then Exact(ts) else Partial(ts);
    var sel' := if exact then Exact(ts') else Partial(ts');
    forall name | name in Resolve(fetched, sel)
      ensures name in Resolve(fetched, sel')
    {
      var i :| 0 <= i < |fetched| && fetched[i].name == name && Kept(sel, fetched[i]);
      KeepsMonotonic(exact, ts, ts', fetched[i].name, fetched[i].moId);
    }
  }

  /** An object an exact search keeps, a substring search with the same tokens keeps too. */
  lemma ExactWithinPartial<T>(fetched: seq<Entry<T>>, ts: seq<string>)
    ensures Resolve(fetched, Exact(ts)).Keys <= Resolve(fetched, Partial(ts)).Keys
  {
    forall name | name in Resolve(fetched, Exact(ts))
      ensures name in Resolve(fetched, Partial(ts))
    {
      var i :| 0 <= i < |fetched| && fetched[i].name == name && Kept(Exact(ts), fetched[i]);
      var e := fetched[i];
      if Lower(e.name) in ts {
        var k :| 0 <= k < |ts| && ts[k] == Lower(e.name);
        SubstringOfItself(Lower(e.name));
        assert IsSubstring(Lower(ts[k]), Lower(e.name));
      } else {
        var k :| 0 <= k < |ts| && ts[k] == e.moId;
        assert Lower(ts[k]) == Lower(e.moId);
      }
      assert Kept(Partial(ts), e);
    }
  }

  /** An empty token is a substring of every name: a substring search keeps everything. */
  lemma EmptyTokenKeepsAll<T>(fetched: seq<Entry<T>>, ts: seq<string>)
    requires "" in ts
    ensures Resolve(fetched, Partial(ts)).Keys == Resolve(fetched, KeepAll).Keys
  {
    var k :| 0 <= k < |ts| && ts[k] == "";
    forall i | 0 <= i < |fetched|
      ensures Kept(Partial(ts), fetched[i])
    {
      EmptyIsSubstring(Lower(fetched[i].name));
      assert IsSubstring(Lower(ts[k]), Lower(fetched[i].name));
    }
  }
}

=== FILE: snapshots.dfy ===
/**
 * The snapshot chain: vSphere reports a tree, but the tool only ever
 * follows the first child of each node, so what it sees is the chain from
 * the first root down through first children. Counting
 * (`_getListVmRow`), listing (`_listVmSnapshot`) and the id search and
 * request choice of `_snapshot` all walk that chain.
 */
module Snapshots {
  import opened Wrappers
  import opened Text
  import opened Inventory
  import VmFilter

  /** The first-child chain that starts at `s`, `s` included. */
  function Chain(s: Snapshot): (r: seq<Snapshot>)
    ensures |r| >= 1 && r[0] == s
    ensures forall k | 0 <= k < |r| - 1 :: |r[k].children| > 0 && r[k + 1] == r[k].children[0]
    ensures |r[|r| - 1].children| == 0
    decreases s
  {
    if |s.children| == 0 then [s] else [s] + Chain(s.children[0])
  }

  /** The chain is the only sequence that starts at `s`, follows first children and ends at a leaf. */
  lemma {:induction false} ChainUnique(s: Snapshot, c: seq<Snapshot>)
    requires |c| >= 1 && c[0] == s
    requires forall k | 0 <= k < |c| - 1 :: |c[k].children| > 0 && c[k + 1] == c[k].children[0]
    requires |c[|c| - 1].children| == 0
    ensures c == Chain(s)
    decreases |c|
  {
    if |c| > 1 {
      ChainUnique(s.children[0], c[1..]);
      assert c == [s] + c[1..];
    }
  }

  /** The chain of a VM: empty without a root snapshot, otherwise from the first root. */
  function VmChain(vm: Vm): (r: seq<Snapshot>)
    ensures |r| == 0 <==> |vm.rootSnapshots| == 0
    ensures |r| > 0 ==> r[0] == vm.rootSnapshots[0]
  {
    if |vm.rootSnapshots| == 0 then [] else Chain(vm.rootSnapshots[0])
  }

  /** The snapshot column of the VM listing: `No`, or a count. */
  datatype SnapshotCount = NoSnapshot | Count(n: nat)

  /** The counting loop of `_getListVmRow`. */
  method CountSnapshots(vm: Vm) returns (c: SnapshotCount)
    ensures c.NoSnapshot? <==> |vm.rootSnapshots| == 0
    ensures c.Count? ==> c.n >= 1 && c.n == |VmChain(vm)|
  {
    if |vm.rootSnapshots| == 0 {
      return NoSnapshot;
    }
    ghost var chain := VmChain(vm);
    var n := 1;
    var ss := vm.rootSnapshots[0];
    while |ss.children| > 0
      invariant 1 <= n <= |chain| && ss == chain[n - 1]
      decreases |chain| - n
    {
      n := n + 1;
      ss := ss.children[0];
    }
    return Count(n);
  }

  /** One printed row: id, creation time without fractional seconds, name, description. */
  datatype Row = Row(id: int, created: string, name: string, description: string)

  /** `str(createTime).split('.')[0]`: the text before the first dot. */
  function Seconds(createTime: string): (r: string)
    ensures '.' !in r
    ensures StartsWith(createTime, r)
  {
    var pieces := Split(createTime, '.');
    JoinSplit(createTime, '.');
    JoinPrefix(pieces, '.');
    pieces[0]
  }

  /** Joining starts with the first piece. */
  lemma JoinPrefix(pieces: seq<string>, sep: char)
    requires |pieces| >= 1
    ensures StartsWith(Join(pieces, sep), pieces[0])
  {
  }

  function RowOf(s: Snapshot): Row {
    Row(s.id, Seconds(s.createTime), s.name, s.description)
  }

  /**
   * The listing loop of `_listVmSnapshot`: one row per node of the chain,
   * in chain order, and the number of rows as the total; no total without
   * a root snapshot.
   */
  method ListSnapshots(vm: Vm) returns (rows: seq<Row>, total: Option<nat>)
    ensures total.None? <==> |vm.rootSnapshots| == 0
    ensures total.None? ==> rows == []
    ensures total.Some? ==> total.value == |rows| == |VmChain(vm)|
    ensures forall k | 0 <= k < |rows| :: rows[k] == RowOf(VmChain(vm)[k])
  {
    rows := [];
    if |vm.rootSnapshots| == 0 {
      return rows, None;
    }
    ghost var chain := VmChain(vm);
    var n := 0;
    var ss := vm.rootSnapshots[0];
    while true
      invariant 0 <= n < |chain| && ss == chain[n] && |rows| == n
      invariant forall k | 0 <= k < n :: rows[k] == RowOf(chain[k])
      decreases |chain| - n
    {
      rows := rows + [RowOf(ss)];
      n := n + 1;
      if |ss.children| == 0 {
        break;
      }
      ss := ss.children[0];
    }
    return rows, Some(n);
  }

  /** The position of the first node on the chain with the id. */
  function FindInChain(chain: seq<Snapshot>, id: int): (r: Option<nat>)
    ensures r.Some? ==> r.value < |chain| && chain[r.value].id == id
    ensures r.Some? ==> forall j | 0 <= j < r.value :: chain[j].id != id
    ensures r.None? ==> forall j | 0 <= j < |chain| :: chain[j].id != id
  {
    if chain == [] then None
    else if chain[0].id == id then Some(0)
    else match FindInChain(chain[1..], id)
      case None => None
      case Some(k) => Some(k + 1)
  }

  datatype Lookup =
    | NoRoot                 // the walk dereferences a missing root: the source raises
    | NotFound               // the walk reached the end of the chain
    | Found(snapshot: Snapshot)

  /** The id search of `_snapshot`. */
  function FindById(vm: Vm, id: int): (r: Lookup)
    ensures r.NoRoot? <==> |vm.rootSnapshots| == 0
    ensures r.NotFound? <==> |vm.rootSnapshots| > 0 && forall j | 0 <= j < |VmChain(vm)| :: VmChain(vm)[j].id != id
    ensures r.Found? ==> r.snapshot.id == id && r.snapshot in VmChain(vm)
    ensures r.Found? ==> exists i | 0 <= i < |VmChain(vm)| ::
      VmChain(vm)[i] == r.snapshot && forall j | 0 <= j < i :: VmChain(vm)[j].id != id
  {
    if |vm.rootSnapshots| == 0 then NoRoot
    else match FindInChain(VmChain(vm), id)
      case None => NotFound
      case Some(i) => Found(VmChain(vm)[i])
  }

  datatype SnapshotAction = CreateAction | ConsolidateAction | RemoveAction | RevertAction | OtherAction

  /** The action strings of `_snapshot`, with their aliases. */
  function ActionOf(action: string): SnapshotAction {
    if action in ["add", "create"] then CreateAction
    else if action == "consolidate" then ConsolidateAction
    else if action in ["remove", "merge"] then RemoveAction
    else if action == "revert" then RevertAction
    else OtherAction
  }

  /**
   * The selection `_snapshot` asks for: exact names and only VMs with a
   * snapshot for remove, merge and revert; only VMs needing consolidation
   * for consolidate; substring names otherwise.
   */
  datatype Selection = Selection(exactMatch: Option<bool>, filter: VmFilter.Filter)

  function SelectionFor(action: string, f: VmFilter.Filter): (s: Selection)
    ensures action in ["remove", "revert", "merge"] ==>
      s.exactMatch == Some(true) && s.filter.snapshot == Some(true)
    ensures action == "consolidate" ==> s.exactMatch.None? && s.filter.consolidate == Some(true)
    ensures s.filter.os == f.os && s.filter.template == f.template && s.filter.power == f.power
  {
    if action in ["remove", "revert", "merge"] then Selection(Some(true), f.(snapshot := Some(true)))
    else if action == "consolidate" then Selection(None, f.(consolidate := Some(true)))
    else Selection(None, f)
  }

  /** The remote call `_snapshot` makes for one VM. */
  datatype SnapshotTask =
    | NoTask
    | CreateSnapshot(name: string, description: Option<string>, memory: bool, quiesce: bool)
    | ConsolidateDisks
    | RemoveSnapshot(id: int, removeChildren: bool)
    | RemoveAllSnapshots
    | RevertToSnapshot(id: int)
    | RevertToCurrentSnapshot
    | WalkCrash              // an id given for a VM without snapshots

  /** The creator recorded on a new snapshot. */
  function Creator(username: Option<string>): string {
    username.GetOr("unknown")
  }

  /**
   * `_snapshot` for one VM as written: an id that is not on the chain
   * falls through to the branch meant for "no id given", so removal
   * removes every snapshot and revert goes to the current one.
   */
  function SnapshotRequestAsWritten(vm: Vm, action: string, id: Option<int>,
                                 username: Option<string>, description: Option<string>): (r: SnapshotTask)
    ensures r.WalkCrash? <==> id.Some? && |vm.rootSnapshots| == 0
  {
    var lookup := if id.Some? then FindById(vm, id.value) else NotFound;
    if lookup.NoRoot? then WalkCrash
    else match ActionOf(action)
      case CreateAction => CreateSnapshot(Creator(username), description, false, false)
      case ConsolidateAction => ConsolidateDisks
      case RemoveAction => if lookup.Found? then RemoveSnapshot(id.value, true) else RemoveAllSnapshots
      case RevertAction => if lookup.Found? then RevertToSnapshot(id.value) else RevertToCurrentSnapshot
      case OtherAction => NoTask
  }

  /**
   * `_snapshot` for one VM with an unknown id reported and nothing
   * submitted: the whole-VM calls are made only when no id is given.
   */
  function SnapshotRequest(vm: Vm, action: string, id: Option<int>,
                        username: Option<string>, description: Option<string>): (r: SnapshotTask)
    ensures r.WalkCrash? <==> id.Some? && |vm.rootSnapshots| == 0
    ensures r.RemoveAllSnapshots? || r.RevertToCurrentSnapshot? ==> id.None?
    ensures r.RemoveSnapshot? || r.RevertToSnapshot? ==> id == Some(r.id) && FindById(vm, r.id).Found?
    ensures id.Some? && FindById(vm, id.value).NotFound? && ActionOf(action) in {RemoveAction, RevertAction} ==> r == NoTask
    ensures r.RemoveSnapshot? ==> r.removeChildren
    ensures r.CreateSnapshot? ==> !r.memory && !r.quiesce && r.description == description
  {
    var lookup := if id.Some? then FindById(vm, id.value) else NotFound;
    if lookup.NoRoot? then WalkCrash
    else match ActionOf(action)
      case CreateAction => CreateSnapshot(Creator(username), description, false, false)
      case ConsolidateAction => ConsolidateDisks
      case RemoveAction =>
        if lookup.Found? then RemoveSnapshot(id.value, true) else if id.None? then RemoveAllSnapshots else NoTask
      case RevertAction =>
        if lookup.Found? then RevertToSnapshot(id.value) else if id.None? then RevertToCurrentSnapshot else NoTask
      case OtherAction => NoTask
  }

  /** Both versions agree whenever the id is absent or on the chain. */
  lemma SnapshotRequestAgrees(vm: Vm, action: string, id: Option<int>,
                           username: Option<string>, description: Option<string>)
    requires id.Some? ==> !FindById(vm, id.value).NotFound?
    ensures SnapshotRequest(vm, action, id, username, description)
         == SnapshotRequestAsWritten(vm, action, id, username, description)
  {
  }

  /** The VMs selected for remove, merge and revert have a snapshot, so the id walk cannot fail. */
  lemma SelectedVmsDoNotCrash(vm: Vm, action: string, f: VmFilter.Filter, id: Option<int>,
                              username: Option<string>, description: Option<string>)
    requires action in ["remove", "revert", "merge"]
    requires VmFilter.Judge(vm, SelectionFor(action, f).filter) == VmFilter.Keep
    ensures !SnapshotRequest(vm, action, id, username, description).WalkCrash?
  {
  }

  function Node(id: int, children: seq<Snapshot>): Snapshot {
    Snapshot(id, "", "snap", "", children)
  }

  /** Snapshots 1, 2 and 3, each the first child of the one before. */
  function ThreeSnapshots(): Vm {
    Vm("db1", "vm-7", PoweredOn, 2, 4096, Some("rhel7_64Guest"), false, "vmx-13",
       [Node(1, [Node(2, [Node(3, [])])])], false, None, [])
  }

  lemma ThreeSnapshotChain()
    ensures VmChain(ThreeSnapshots()) == [Node(1, [Node(2, [Node(3, [])])]), Node(2, [Node(3, [])]), Node(3, [])]
  {
    assert Chain(Node(3, [])) == [Node(3, [])];
    assert Chain(Node(2, [Node(3, [])])) == [Node(2, [Node(3, [])]), Node(3, [])];
  }

  /** On the chain 1, 2, 3, id 2 finds the second node and id 9 nothing. */
  lemma ThreeSnapshotLookups()
    ensures |VmChain(ThreeSnapshots())| == 3
    ensures FindById(ThreeSnapshots(), 2) == Found(Node(2, [Node(3, [])]))
    ensures FindById(ThreeSnapshots(), 9) == NotFound
  {
    ThreeSnapshotChain();
    var c := VmChain(ThreeSnapshots());
    assert c[0].id == 1 && c[1].id == 2 && c[2].id == 3;
  }

  /** Removing id 9 from the chain 1, 2, 3 removes every snapshot as written and nothing once corrected. */
  lemma UnknownIdRemovesAll()
    ensures SnapshotRequestAsWritten(ThreeSnapshots(), "remove", Some(9), None, None) == RemoveAllSnapshots
    ensures SnapshotRequestAsWritten(ThreeSnapshots(), "revert", Some(9), None, None) == RevertToCurrentSnapshot
    ensures SnapshotRequest(ThreeSnapshots(), "remove", Some(9), None, None) == NoTask
    ensures SnapshotRequest(ThreeSnapshots(), "remove", Some(2), None, None) == RemoveSnapshot(2, true)
  {
    ThreeSnapshotLookups();
  }
}

=== FILE: tags.dfy ===
/**
 * The tag engine: `_addVmTag` and `_removeVmTag`. Tags are chosen by
 * lower-cased name and, optionally, by a category hint matched as a
 * substring of the category name. A tag's key is `hint.name` when a hint
 * is given and its bare name otherwise.
 *
 * Attaching to a category of cardinality SINGLE first detaches one
 * conflicting tag (the "Highlander rule"). The tag service and the
 * association service are modelled by the list of catalog tags and, per
 * VM id, the list of attached tags; a detach removes a tag from that list
 * and an attach adds it when it is not already there.
 */
module Tags {
  import opened Wrappers
  import opened Text

  datatype Category = Category(id: string, name: string, cardinality: string)
  datatype Tag = Tag(id: string, name: string, category: Category)

  predicate IsSingle(t: Tag) {
    Lower(t.category.cardinality) == "single"
  }

  /** Same category name and same cardinality: what the Highlander check compares. */
  predicate SameSlot(a: Tag, b: Tag) {
    a.category.name == b.category.name && a.category.cardinality == b.category.cardinality
  }

  predicate Conflicts(attached: Tag, t: Tag) {
    SameSlot(attached, t) && attached.name != t.name
  }

  function TagKey(hint: Option<string>, t: Tag): string {
    if hint.Some? then hint.value + "." + t.name else t.name
  }

  /** The two checks both loops apply to a tag. */
  predicate Matches(t: Tag, tokens: seq<string>, hint: Option<string>) {
    Lower(t.name) in tokens && (hint.None? || IsSubstring(Lower(hint.value), Lower(t.category.name)))
  }

  /** The matching tags, in catalog order. */
  function Matching(tags: seq<Tag>, tokens: seq<string>, hint: Option<string>): (r: seq<Tag>)
    ensures |r| <= |tags|
    ensures forall k | 0 <= k < |r| :: Matches(r[k], tokens, hint) && r[k] in tags
    ensures forall t | t in tags && Matches(t, tokens, hint) :: t in r
  {
    if tags == [] then []
    else (if Matches(tags[0], tokens, hint) then [tags[0]] else []) + Matching(tags[1..], tokens, hint)
  }

  function KeysOf(tags: seq<Tag>, hint: Option<string>): (r: seq<string>)
    ensures |r| == |tags|
    ensures forall k | 0 <= k < |tags| :: r[k] == TagKey(hint, tags[k])
  {
    seq(|tags|, k requires 0 <= k < |tags| => TagKey(hint, tags[k]))
  }

  predicate Distinct(keys: seq<string>) {
    forall i, j | 0 <= i < j < |keys| :: keys[i] != keys[j]
  }

  lemma DuplicateKey(acc: seq<Tag>, t: Tag, rest: seq<Tag>, hint: Option<string>)
    requires TagKey(hint, t) in KeysOf(acc, hint)
    ensures !Distinct(KeysOf(acc + ([t] + rest), hint))
  {
    var all := acc + ([t] + rest);
    var i :| 0 <= i < |acc| && KeysOf(acc, hint)[i] == TagKey(hint, t);
    assert all[i] == acc[i] && all[|acc|] == t;
    assert KeysOf(all, hint)[i] == KeysOf(all, hint)[|acc|];
  }

  lemma FreshKey(acc: seq<Tag>, t: Tag, hint: Option<string>)
    requires Distinct(KeysOf(acc, hint)) && TagKey(hint, t) !in KeysOf(acc, hint)
    ensures Distinct(KeysOf(acc + [t], hint))
  {
    var ks := KeysOf(acc + [t], hint);
    forall i, j | 0 <= i < j < |ks| ensures ks[i] != ks[j] {
      assert ks[i] == KeysOf(acc, hint)[i];
      if j < |acc| {
        assert ks[j] == KeysOf(acc, hint)[j];
      }
    }
  }

  lemma Regroup(acc: seq<Tag>, t: Tag, rest: seq<Tag>)
    ensures acc + ([t] + rest) == (acc + [t]) + rest
  {
  }

  /**
   * The tag loop of `_addVmTag`, as a fold with the tags collected so
   * far: a second tag with an existing key ends the loop.
   */
  function CollectTags(tags: seq<Tag>, tokens: seq<string>, hint: Option<string>, acc: seq<Tag>): (r: Option<seq<Tag>>)
    requires Distinct(KeysOf(acc, hint))
    ensures r.Some? <==> Distinct(KeysOf(acc + Matching(tags, tokens, hint), hint))
    ensures r.Some? ==> r.value == acc + Matching(tags, tokens, hint)
    decreases |tags|
  {
    if tags == [] then
      assert acc + [] == acc;
      Some(acc)
    else
      var t := tags[0];
      var rest := Matching(tags[1..], tokens, hint);
      if !Matches(t, tokens, hint) then
        assert Matching(tags, tokens, hint) == rest;
        CollectTags(tags[1..], tokens, hint, acc)
      else if TagKey(hint, t) in KeysOf(acc, hint) then
        assert Matching(tags, tokens, hint) == [t] + rest;
        DuplicateKey(acc, t, rest, hint);
        None
      else
        assert Matching(tags, tokens, hint) == [t] + rest;
        FreshKey(acc, t, hint);
        Regroup(acc, t, rest);
        CollectTags(tags[1..], tokens, hint, acc + [t])
  }

  /**
   * The tags `_addVmTag` attaches: all matching tags of the catalog, in
   * catalog order, unless two of them share a key.
   */
  function ResolveTags(catalog: seq<Tag>, tokens: seq<string>, hint: Option<string>): (r: Option<seq<Tag>>)
    ensures r.Some? <==> Distinct(KeysOf(Matching(catalog, tokens, hint), hint))
    ensures r.Some? ==> forall t :: t in r.value <==> t in catalog && Matches(t, tokens, hint)
  {
    assert [] + Matching(catalog, tokens, hint) == Matching(catalog, tokens, hint);
    CollectTags(catalog, tokens, hint, [])
  }

  /** With a hint, two tags of the same name in matching categories are one key: the hint, not the category, is in the key. */
  lemma HintKeysCollide(hint: string, a: Tag, b: Tag)
    requires a.name == b.name
    ensures TagKey(Some(hint), a) == TagKey(Some(hint), b)
  {
  }

  datatype Step = DetachTag(tag: Tag) | AttachTag(tag: Tag)

  /** The first attached tag that conflicts with `t`. */
  function FirstConflict(attached: seq<Tag>, t: Tag, from: nat): (r: Option<nat>)
    requires from <= |attached|
    ensures r.Some? ==> from <= r.value < |attached| && Conflicts(attached[r.value], t)
    ensures r.Some? ==> forall j | from <= j < r.value :: !Conflicts(attached[j], t)
    ensures r.None? ==> forall j | from <= j < |attached| :: !Conflicts(attached[j], t)
    decreases |attached| - from
  {
    if from == |attached| then None
    else if Conflicts(attached[from], t) then Some(from)
    else FirstConflict(attached, t, from + 1)
  }

  function Without(attached: seq<Tag>, t: Tag): (r: seq<Tag>)
    ensures forall x :: x in r <==> x in attached && x != t
  {
    if attached == [] then []
    else (if attached[0] == t then [] else [attached[0]]) + Without(attached[1..], t)
  }

  function WithTag(attached: seq<Tag>, t: Tag): (r: seq<Tag>)
    ensures forall x :: x in r <==> x in attached || x == t
  {
    if t in attached then attached else attached + [t]
  }

  datatype AttachResult = AttachResult(attached: seq<Tag>, steps: seq<Step>)

  /**
   * One tag on one VM: for a SINGLE category the first conflicting tag is
   * detached, then the tag is attached.
   */
  function AttachOne(attached: seq<Tag>, t: Tag): (r: AttachResult)
    ensures r.steps == [AttachTag(t)] || (
      && |r.steps| == 2 && r.steps[1] == AttachTag(t)
      && r.steps[0].DetachTag? && r.steps[0].tag in attached
      && IsSingle(t) && Conflicts(r.steps[0].tag, t))
    ensures forall x :: x in r.attached <==>
      x == t || (x in attached && r.steps[0] != DetachTag(x))
  {
    var conflict := if IsSingle(t) then FirstConflict(attached, t, 0) else None;
    match conflict
    case None => AttachResult(WithTag(attached, t), [AttachTag(t)])
    case Some(i) =>
      var prior := attached[i];
      AttachResult(WithTag(Without(attached, prior), t), [DetachTag(prior), AttachTag(t)])
  }

  /** Only the first of several conflicting tags is detached. */
  lemma OnlyFirstConflictDetached(a: Tag, b: Tag, t: Tag)
    requires IsSingle(t) && Conflicts(a, t) && Conflicts(b, t) && a != b && b != t
    ensures AttachOne([a, b], t).steps == [DetachTag(a), AttachTag(t)]
    ensures b in AttachOne([a, b], t).attached
  {
  }

  /** No two different tags of one SINGLE category are attached. */
  ghost predicate Highlander(attached: seq<Tag>) {
    forall a, b | a in attached && b in attached && a != b :: !(IsSingle(a) && SameSlot(a, b))
  }

  /** Within one category, a tag is identified by its name. */
  ghost predicate Coherent(tags: seq<Tag>) {
    forall a, b | a in tags && b in tags && SameSlot(a, b) && a.name == b.name :: a == b
  }

  lemma HighlanderPreserved(attached: seq<Tag>, t: Tag)
    requires Highlander(attached) && Coherent(attached + [t])
    ensures Highlander(AttachOne(attached, t).attached)
  {
    var r := AttachOne(attached, t);
    assert t in attached + [t];
    assert forall x | x in attached :: x in attached + [t];
    forall a, b | a in r.attached && b in r.attached && a != b && IsSingle(a)
      ensures !SameSlot(a, b)
    {
      assert a == t || a in attached;
      assert b == t || b in attached;
      if |r.steps| == 2 {
        var prior := r.steps[0].tag;
        assert prior in attached && SameSlot(prior, t);
      }
    }
  }

  /** Every detach is immediately followed by the attach of a conflicting SINGLE-category tag. */
  predicate WellPaired(steps: seq<Step>) {
    forall k | 0 <= k < |steps| && steps[k].DetachTag? ::
      k + 1 < |steps| && steps[k + 1].AttachTag? && IsSingle(steps[k + 1].tag)
      && Conflicts(steps[k].tag, steps[k + 1].tag)
  }

  /** The attached tags of a step list, in order. */
  function Attaches(steps: seq<Step>): (r: seq<Tag>)
    ensures |r| <= |steps|
  {
    if steps == [] then []
    else (if steps[0].AttachTag? then [steps[0].tag] else []) + Attaches(steps[1..])
  }

  lemma {:induction false} AttachesConcat(a: seq<Step>, b: seq<Step>)
    ensures Attaches(a + b) == Attaches(a) + Attaches(b)
  {
    if a == [] {
      assert a + b == b;
    } else {
      assert (a + b)[0] == a[0];
      assert (a + b)[1..] == a[1..] + b;
      AttachesConcat(a[1..], b);
      var head := if a[0].AttachTag? then [a[0].tag] else [];
      assert Attaches(a + b) == head + (Attaches(a[1..]) + Attaches(b));
      assert Attaches(a) == head + Attaches(a[1..]);
    }
  }

  lemma WellPairedConcat(a: seq<Step>, b: seq<Step>)
    requires WellPaired(a) && WellPaired(b)
    ensures WellPaired(a + b)
  {
    var ab := a + b;
    forall k | 0 <= k < |ab| && ab[k].DetachTag?
      ensures k + 1 < |ab| && ab[k + 1].AttachTag? && IsSingle(ab[k + 1].tag) && Conflicts(ab[k].tag, ab[k + 1].tag)
    {
      if k < |a| {
        assert ab[k] == a[k] && ab[k + 1] == a[k + 1];
      } else {
        assert ab[k] == b[k - |a|] && ab[k + 1] == b[k - |a| + 1];
      }
    }
  }

  lemma AttachOneShape(attached: seq<Tag>, t: Tag)
    ensures WellPaired(AttachOne(attached, t).steps)
    ensures Attaches(AttachOne(attached, t).steps) == [t]
  {
    var steps := AttachOne(attached, t).steps;
    if |steps| == 2 {
      assert steps[1..] == [AttachTag(t)];
      assert steps[1..][1..] == [];
    } else {
      assert steps[1..] == [];
    }
  }

  /**
   * The tag loop for one VM. The steps attach every tag once, in order,
   * and detach nothing that is not replaced on the spot.
   */
  function AttachAll(attached: seq<Tag>, tags: seq<Tag>): (r: AttachResult)
    ensures WellPaired(r.steps)
    ensures Attaches(r.steps) == tags
    ensures tags != [] ==> tags[|tags| - 1] in r.attached
    decreases |tags|
  {
    if tags == [] then AttachResult(attached, [])
    else
      var one := AttachOne(attached, tags[0]);
      var rest := AttachAll(one.attached, tags[1..]);
      AttachOneShape(attached, tags[0]);
      AttachesConcat(one.steps, rest.steps);
      WellPairedConcat(one.steps, rest.steps);
      assert tags == [tags[0]] + tags[1..];
      assert |tags| > 1 ==> tags[1..][|tags[1..]| - 1] == tags[|tags| - 1];
      AttachResult(rest.attached, one.steps + rest.steps)
  }

  lemma CoherentSubset(small: seq<Tag>, large: seq<Tag>)
    requires Coherent(large) && forall x | x in small :: x in large
    ensures Coherent(small)
  {
  }

  /** The Highlander rule holds after the loop if it held before and the catalog is coherent. */
  lemma {:induction false} HighlanderPreservedAll(attached: seq<Tag>, tags: seq<Tag>)
    requires Highlander(attached) && Coherent(attached + tags)
    ensures Highlander(AttachAll(attached, tags).attached)
    decreases |tags|
  {
    if tags != [] {
      CoherentSubset(attached + [tags[0]], attached + tags);
      HighlanderPreserved(attached, tags[0]);
      var one := AttachOne(attached, tags[0]);
      CoherentSubset(one.attached + tags[1..], attached + tags);
      HighlanderPreservedAll(one.attached, tags[1..]);
    }
  }

  /** Two tags of one SINGLE category: the second replaces the first on the VM. */
  lemma SecondSingleTagReplacesFirst(gold: Tag, silver: Tag)
    requires IsSingle(gold) && SameSlot(gold, silver) && gold.name != silver.name
    ensures AttachAll([], [gold, silver]).steps == [AttachTag(gold), DetachTag(gold), AttachTag(silver)]
    ensures AttachAll([], [gold, silver]).attached == [silver]
  {
    assert IsSingle(silver);
    var first := AttachOne([], gold);
    assert first == AttachResult([gold], [AttachTag(gold)]);
    assert FirstConflict([gold], silver, 0) == Some(0);
    assert Without([gold], gold) == [];
    var second := AttachOne([gold], silver);
    assert second == AttachResult([silver], [DetachTag(gold), AttachTag(silver)]);
    assert [gold, silver][1..] == [silver];
    assert [silver][1..] == [];
    assert AttachAll([silver], []) == AttachResult([silver], []);
    assert AttachAll([gold], [silver]) == AttachResult([silver], [DetachTag(gold), AttachTag(silver)]);
  }

  /** A step of the whole command, on the VM with the given id. */
  datatype TagEffect = TagEffect(vm: string, step: Step)

  function OnVm(vm: string, steps: seq<Step>): (r: seq<TagEffect>)
    ensures |r| == |steps|
    ensures forall k | 0 <= k < |r| :: r[k].vm == vm
  {
    seq(|steps|, k requires 0 <= k < |steps| => TagEffect(vm, steps[k]))
  }

  /** The live attachments: VM id to the tags attached to it. */
  type Associations = map<string, seq<Tag>>

  function AttachedTo(assoc: Associations, vm: string): seq<Tag> {
    if vm in assoc then assoc[vm] else []
  }

  datatype Applied = Applied(assoc: Associations, effects: seq<TagEffect>)

  /** The VMs of a dictionary's keys: the first is not among the rest, which are distinct too. */
  lemma DistinctTail(vms: seq<string>)
    requires vms != []
    ensures Distinct(vms) ==> Distinct(vms[1..]) && vms[0] !in vms[1..]
  {
    if Distinct(vms) {
      forall j | 0 <= j < |vms[1..]| ensures vms[1..][j] != vms[0] {
        assert vms[1..][j] == vms[j + 1];
      }
    }
  }

  /**
   * The VM loop of `_addVmTag`. Each VM of the selection (distinct ids,
   * the keys of a dictionary) ends with the tags the tag loop leaves on
   * it, starting from its own attachments.
   */
  function ApplyTags(vms: seq<string>, assoc: Associations, tags: seq<Tag>): (r: Applied)
    ensures r.assoc.Keys == assoc.Keys + set v | v in vms
    ensures forall v | v in assoc && v !in vms :: r.assoc[v] == assoc[v]
    ensures Distinct(vms) ==> forall v | v in vms :: r.assoc[v] == AttachAll(AttachedTo(assoc, v), tags).attached
    decreases |vms|
  {
    if vms == [] then Applied(assoc, [])
    else
      var v := vms[0];
      var one := AttachAll(AttachedTo(assoc, v), tags);
      var rest := ApplyTags(vms[1..], assoc[v := one.attached], tags);
      ApplyTagsStep(vms, assoc, tags, one.attached, rest.assoc);
      Applied(rest.assoc, OnVm(v, one.steps) + rest.effects)
  }

  /** One turn of the VM loop: the first VM's tags are settled, the rest follow. */
  lemma ApplyTagsStep(vms: seq<string>, assoc: Associations, tags: seq<Tag>, one: seq<Tag>, after: Associations)
    requires vms != [] && one == AttachAll(AttachedTo(assoc, vms[0]), tags).attached
    requires after.Keys == assoc[vms[0] := one].Keys + set v | v in vms[1..]
    requires forall v | v in assoc[vms[0] := one] && v !in vms[1..] :: after[v] == assoc[vms[0] := one][v]
    requires Distinct(vms[1..]) ==>
      forall v | v in vms[1..] :: after[v] == AttachAll(AttachedTo(assoc[vms[0] := one], v), tags).attached
    ensures after.Keys == assoc.Keys + set v | v in vms
    ensures forall v | v in assoc && v !in vms :: after[v] == assoc[v]
    ensures Distinct(vms) ==> forall v | v in vms :: after[v] == AttachAll(AttachedTo(assoc, v), tags).attached
  {
    assert forall v | v in vms :: v == vms[0] || v in vms[1..];
    if Distinct(vms) {
      SettledStep(vms, assoc, tags, one, after);
    }
  }

  /** The settled half of one turn: with distinct ids, every VM of the turn ends with its own tag loop's result. */
  lemma SettledStep(vms: seq<string>, assoc: Associations, tags: seq<Tag>, one: seq<Tag>, after: Associations)
    requires vms != [] && Distinct(vms) && one == AttachAll(AttachedTo(assoc, vms[0]), tags).attached
    requires after.Keys == assoc[vms[0] := one].Keys + set v | v in vms[1..]
    requires forall v | v in assoc[vms[0] := one] && v !in vms[1..] :: after[v] == assoc[vms[0] := one][v]
    requires Distinct(vms[1..]) ==>
      forall v | v in vms[1..] :: after[v] == AttachAll(AttachedTo(assoc[vms[0] := one], v), tags).attached
    ensures forall v | v in vms :: after[v] == AttachAll(AttachedTo(assoc, v), tags).attached
  {
    DistinctTail(vms);
    var v0 := vms[0];
    var a1 := assoc[v0 := one];
    forall v | v in vms ensures after[v] == AttachAll(AttachedTo(assoc, v), tags).attached {
      if v != v0 {
        assert v in vms[1..];
        assert AttachedTo(a1, v) == AttachedTo(assoc, v);
      } else {
        assert v0 in a1 && v0 !in vms[1..];
      }
    }
  }

  lemma EffectsAppend(v: string, a: seq<TagEffect>, b: seq<TagEffect>, vms: seq<string>)
    requires vms != [] && vms[0] == v
    requires forall k | 0 <= k < |a| :: a[k].vm == v
    requires forall k | 0 <= k < |b| :: b[k].vm in vms[1..]
    ensures forall k | 0 <= k < |a + b| :: (a + b)[k].vm in vms
  {
    forall k | 0 <= k < |a + b|
      ensures (a + b)[k].vm in vms
    {
      if k >= |a| {
        assert (a + b)[k] == b[k - |a|];
      }
    }
  }

  /** The steps of the whole command: each VM's tag loop, VM after VM, from its own attachments. */
  function EffectsOf(vms: seq<string>, assoc: Associations, tags: seq<Tag>): seq<TagEffect> {
    if vms == [] then []
    else OnVm(vms[0], AttachAll(AttachedTo(assoc, vms[0]), tags).steps) + EffectsOf(vms[1..], assoc, tags)
  }

  lemma {:induction false} EffectsOfUnchanged(vms: seq<string>, assoc: Associations, v: string, x: seq<Tag>, tags: seq<Tag>)
    requires v !in vms
    ensures EffectsOf(vms, assoc[v := x], tags) == EffectsOf(vms, assoc, tags)
    decreases |vms|
  {
    if vms != [] {
      assert AttachedTo(assoc[v := x], vms[0]) == AttachedTo(assoc, vms[0]);
      EffectsOfUnchanged(vms[1..], assoc, v, x, tags);
    }
  }

  /** The effects of the VM loop are every selected VM's attach and detach steps, in order. */
  lemma {:induction false} ApplyTagsEffects(vms: seq<string>, assoc: Associations, tags: seq<Tag>)
    requires Distinct(vms)
    ensures ApplyTags(vms, assoc, tags).effects == EffectsOf(vms, assoc, tags)
    decreases |vms|
  {
    if vms != [] {
      DistinctTail(vms);
      var v := vms[0];
      var one := AttachAll(AttachedTo(assoc, v), tags);
      ApplyTagsEffects(vms[1..], assoc[v := one.attached], tags);
      EffectsOfUnchanged(vms[1..], assoc, v, one.attached, tags);
    }
  }

  /** Only the selected VMs are touched. */
  lemma {:induction false} EffectsOnSelectedVms(vms: seq<string>, assoc: Associations, tags: seq<Tag>)
    ensures forall k | 0 <= k < |ApplyTags(vms, assoc, tags).effects| :: ApplyTags(vms, assoc, tags).effects[k].vm in vms
    decreases |vms|
  {
    if vms != [] {
      var v := vms[0];
      var one := AttachAll(AttachedTo(assoc, v), tags);
      EffectsOnSelectedVms(vms[1..], assoc[v := one.attached], tags);
      EffectsAppend(v, OnVm(v, one.steps), ApplyTags(vms[1..], assoc[v := one.attached], tags).effects, vms);
    }
  }

  /** Every VM touched keeps the Highlander rule. */
  lemma {:induction false} HighlanderEveryVm(vms: seq<string>, assoc: Associations, tags: seq<Tag>)
    requires forall v | v in assoc :: Highlander(assoc[v]) && Coherent(assoc[v] + tags)
    requires Coherent(tags)
    ensures forall v | v in ApplyTags(vms, assoc, tags).assoc :: Highlander(ApplyTags(vms, assoc, tags).assoc[v])
    decreases |vms|
  {
    if vms != [] {
      var v := vms[0];
      assert AttachedTo(assoc, v) + tags == tags || v in assoc;
      HighlanderPreservedAll(AttachedTo(assoc, v), tags);
      var one := AttachAll(AttachedTo(assoc, v), tags);
      AttachAllWithin(AttachedTo(assoc, v), tags);
      CoherentSubset(one.attached + tags, AttachedTo(assoc, v) + tags);
      HighlanderEveryVm(vms[1..], assoc[v := one.attached], tags);
    }
  }

  /** The loop leaves only tags that were attached before or are being attached. */
  lemma {:induction false} AttachAllWithin(attached: seq<Tag>, tags: seq<Tag>)
    ensures forall x | x in AttachAll(attached, tags).attached :: x in attached || x in tags
    decreases |tags|
  {
    if tags != [] {
      var one := AttachOne(attached, tags[0]);
      AttachAllWithin(one.attached, tags[1..]);
    }
  }

  datatype AddTagOutcome =
    | TagListMissing       // no tag token while the catalog is not empty: the source raises
    | AmbiguousTag         // two matching tags share a key
    | TagNotFound
    | VmNotFound
    | TagsAttached(result: Applied)

  /** `_addVmTag`. The resolved VMs are given by id, in iteration order. */
  function AddVmTag(tokens: Option<seq<string>>, hint: Option<string>, catalog: seq<Tag>,
                    vms: seq<string>, assoc: Associations): (r: AddTagOutcome)
    ensures r.TagsAttached? ==>
      && tokens.Some? && |vms| > 0
      && var tags := Matching(catalog, tokens.value, hint);
         && tags != [] && Distinct(KeysOf(tags, hint))
         && r.result == ApplyTags(vms, assoc, tags)
    ensures r == AmbiguousTag <==> tokens.Some? && !Distinct(KeysOf(Matching(catalog, tokens.value, hint), hint))
    ensures r.TagsAttached? <==>
      tokens.Some? && |vms| > 0 && Matching(catalog, tokens.value, hint) != []
      && Distinct(KeysOf(Matching(catalog, tokens.value, hint), hint))
    ensures r == VmNotFound <==>
      tokens.Some? && |vms| == 0 && Matching(catalog, tokens.value, hint) != []
      && Distinct(KeysOf(Matching(catalog, tokens.value, hint), hint))
    ensures r == TagNotFound <==>
      (tokens.None? && catalog == []) ||
      (tokens.Some? && Matching(catalog, tokens.value, hint) == [])
    ensures r == TagListMissing <==> tokens.None? && catalog != []
  {
    if tokens.None? then (if catalog == [] then TagNotFound else TagListMissing)
    else match ResolveTags(catalog, tokens.value, hint)
      case None => AmbiguousTag
      case Some(tags) =>
        if tags == [] then TagNotFound
        else if vms == [] then VmNotFound
        else TagsAttached(ApplyTags(vms, assoc, tags))
  }

  /** `i` is a matching attached tag with this key. */
  predicate HoldsKey(tags: seq<Tag>, tokens: seq<string>, hint: Option<string>, key: string, i: int) {
    0 <= i < |tags| && Matches(tags[i], tokens, hint) && TagKey(hint, tags[i]) == key
  }

  ghost predicate HasHolder(tags: seq<Tag>, tokens: seq<string>, hint: Option<string>, key: string) {
    exists i :: HoldsKey(tags, tokens, hint, key, i)
  }

  /** `i` is the only matching attached tag with this key. */
  ghost predicate UniqueHolder(tags: seq<Tag>, tokens: seq<string>, hint: Option<string>, key: string, i: int) {
    HoldsKey(tags, tokens, hint, key, i) && forall j | HoldsKey(tags, tokens, hint, key, j) :: j == i
  }

  ghost predicate SharedKey(tags: seq<Tag>, tokens: seq<string>, hint: Option<string>, key: string) {
    exists i, j :: HoldsKey(tags, tokens, hint, key, i) && HoldsKey(tags, tokens, hint, key, j) && i != j
  }

  /** What the dictionary says about one key. */
  ghost predicate EntryFor(m: map<string, Option<Tag>>, tags: seq<Tag>, tokens: seq<string>, hint: Option<string>, key: string) {
    && (key in m <==> HasHolder(tags, tokens, hint, key))
    && (key in m && m[key].Some? ==> exists i :: UniqueHolder(tags, tokens, hint, key, i) && tags[i] == m[key].value)
    && (key in m && m[key].None? ==> SharedKey(tags, tokens, hint, key))
  }

  /** One iteration of the loop over the attached tags. */
  function NextEntries(m: map<string, Option<Tag>>, t: Tag, tokens: seq<string>, hint: Option<string>): map<string, Option<Tag>> {
    if !Matches(t, tokens, hint) then m
    else if TagKey(hint, t) in m then m[TagKey(hint, t) := None]
    else m[TagKey(hint, t) := Some(t)]
  }

  lemma HoldsAppend(p: seq<Tag>, t: Tag, tokens: seq<string>, hint: Option<string>, key: string, i: int)
    ensures HoldsKey(p + [t], tokens, hint, key, i) <==>
      (i < |p| && HoldsKey(p, tokens, hint, key, i)) ||
      (i == |p| && Matches(t, tokens, hint) && TagKey(hint, t) == key)
  {
    if 0 <= i < |p| {
      assert (p + [t])[i] == p[i];
    }
  }

  lemma EntryStep(m: map<string, Option<Tag>>, p: seq<Tag>, t: Tag, tokens: seq<string>, hint: Option<string>, key: string)
    requires EntryFor(m, p, tokens, hint, key)
    ensures EntryFor(NextEntries(m, t, tokens, hint), p + [t], tokens, hint, key)
  {
    var tags := p + [t];
    var m' := NextEntries(m, t, tokens, hint);
    forall i ensures HoldsKey(tags, tokens, hint, key, i) <==>
        (i < |p| && HoldsKey(p, tokens, hint, key, i)) ||
        (i == |p| && Matches(t, tokens, hint) && TagKey(hint, t) == key) {
      HoldsAppend(p, t, tokens, hint, key, i);
    }
    var isNew := Matches(t, tokens, hint) && TagKey(hint, t) == key;
    if !isNew {
      assert key in m' <==> key in m;
      assert key in m ==> m'[key] == m[key];
      if key in m && m[key].Some? {
        var i :| UniqueHolder(p, tokens, hint, key, i) && p[i] == m[key].value;
        assert UniqueHolder(tags, tokens, hint, key, i) && tags[i] == m'[key].value;
      }
      if key in m && m[key].None? {
        var i, j :| HoldsKey(p, tokens, hint, key, i) && HoldsKey(p, tokens, hint, key, j) && i != j;
        assert HoldsKey(tags, tokens, hint, key, i) && HoldsKey(tags, tokens, hint, key, j);
      }
      if HasHolder(tags, tokens, hint, key) {
        var i :| HoldsKey(tags, tokens, hint, key, i);
        assert HoldsKey(p, tokens, hint, key, i);
      }
    } else {
      assert HoldsKey(tags, tokens, hint, key, |p|);
      if key in m {
        var i :| HoldsKey(p, tokens, hint, key, i);
        assert HoldsKey(tags, tokens, hint, key, i);
        assert SharedKey(tags, tokens, hint, key);
      } else {
        assert UniqueHolder(tags, tokens, hint, key, |p|);
      }
    }
  }

  /**
   * The per-VM dictionary of `_removeVmTag`: a key maps to its tag when one
   * matching tag has it, and to `None` when several do.
   */
  function RemoveEntries(tags: seq<Tag>, tokens: seq<string>, hint: Option<string>): (m: map<string, Option<Tag>>)
    ensures forall key :: EntryFor(m, tags, tokens, hint, key)
  {
    if tags == [] then map[]
    else
      var prefix := tags[..|tags| - 1];
      var t := tags[|tags| - 1];
      var m := RemoveEntries(prefix, tokens, hint);
      assert tags == prefix + [t];
      assert forall key :: EntryFor(NextEntries(m, t, tokens, hint), tags, tokens, hint, key) by {
        forall key ensures EntryFor(NextEntries(m, t, tokens, hint), prefix + [t], tokens, hint, key) {
          EntryStep(m, prefix, t, tokens, hint, key);
        }
      }
      NextEntries(m, t, tokens, hint)
  }

  /** A tag is a value of the dictionary exactly when it is the only holder of its key. */
  lemma DetachedIffUnique(m: map<string, Option<Tag>>, tags: seq<Tag>, tokens: seq<string>, hint: Option<string>, t: Tag)
    requires forall key :: EntryFor(m, tags, tokens, hint, key)
    ensures (exists k :: k in m && m[k] == Some(t)) <==>
      exists i :: UniqueHolder(tags, tokens, hint, TagKey(hint, t), i) && tags[i] == t
  {
    var key := TagKey(hint, t);
    assert EntryFor(m, tags, tokens, hint, key);
    if exists i :: UniqueHolder(tags, tokens, hint, key, i) && tags[i] == t {
      var i :| UniqueHolder(tags, tokens, hint, key, i) && tags[i] == t;
      assert HasHolder(tags, tokens, hint, key);
      assert !SharedKey(tags, tokens, hint, key);
      var i' :| UniqueHolder(tags, tokens, hint, key, i') && tags[i'] == m[key].value;
      assert i' == i;
      assert m[key] == Some(t);
    }
    if exists k :: k in m && m[k] == Some(t) {
      var k :| k in m && m[k] == Some(t);
      assert EntryFor(m, tags, tokens, hint, k);
      var i :| UniqueHolder(tags, tokens, hint, k, i) && tags[i] == t;
      assert k == key;
    }
  }

  /**
   * The tags `_removeVmTag` detaches from one VM: the matching attached
   * tags whose key no other matching attached tag shares.
   */
  function RemovePlan(tags: seq<Tag>, tokens: seq<string>, hint: Option<string>): (r: set<Tag>)
    ensures forall t :: t in r <==> exists i :: UniqueHolder(tags, tokens, hint, TagKey(hint, t), i) && tags[i] == t
  {
    var m := RemoveEntries(tags, tokens, hint);
    var r := set k | k in m && m[k].Some? :: m[k].value;
    assert forall t :: t in r <==> exists i :: UniqueHolder(tags, tokens, hint, TagKey(hint, t), i) && tags[i] == t by {
      forall t ensures t in r <==> exists i :: UniqueHolder(tags, tokens, hint, TagKey(hint, t), i) && tags[i] == t {
        DetachedIffUnique(m, tags, tokens, hint, t);
        assert t in r <==> exists k :: k in m && m[k] == Some(t);
      }
    }
    r
  }

  /** A key held by two matching attached tags detaches no tag with that key. */
  lemma AmbiguousKeySkipped(tags: seq<Tag>, tokens: seq<string>, hint: Option<string>, key: string, i: int, j: int)
    requires HoldsKey(tags, tokens, hint, key, i) && HoldsKey(tags, tokens, hint, key, j) && i != j
    ensures forall t | TagKey(hint, t) == key :: t !in RemovePlan(tags, tokens, hint)
  {
  }

  /** A matching attached tag whose key is its own is detached. */
  lemma UniqueKeyDetached(tags: seq<Tag>, tokens: seq<string>, hint: Option<string>, i: int)
    requires 0 <= i < |tags| && UniqueHolder(tags, tokens, hint, TagKey(hint, tags[i]), i)
    ensures tags[i] in RemovePlan(tags, tokens, hint)
  {
  }

  datatype RemoveTagOutcome =
    | RemoveListMissing    // no tag token while some VM has a tag: the source raises
    | NoVmToUntag
    | TagsDetached(plan: map<string, set<Tag>>)

  /** `_removeVmTag`: per VM, the tags detached. */
  function RemoveVmTag(tokens: Option<seq<string>>, hint: Option<string>, vms: seq<string>,
                       assoc: Associations): (r: RemoveTagOutcome)
    ensures r == NoVmToUntag <==> |vms| == 0
    ensures r.TagsDetached? ==> r.plan.Keys == set v | v in vms
    ensures r.TagsDetached? ==> forall v | v in r.plan :: forall t | t in r.plan[v] :: t in AttachedTo(assoc, v)
    ensures r.TagsDetached? && tokens.Some? ==>
      forall v | v in vms :: r.plan[v] == RemovePlan(AttachedTo(assoc, v), tokens.value, hint)
    ensures r.TagsDetached? && tokens.None? ==> forall v | v in vms :: r.plan[v] == {}
    ensures r == RemoveListMissing <==> |vms| > 0 && tokens.None? && exists v | v in vms :: AttachedTo(assoc, v) != []
  {
    if vms == [] then NoVmToUntag
    else if tokens.None? then
      (if exists v | v in vms :: AttachedTo(assoc, v) != [] then RemoveListMissing
       else TagsDetached(map v | v in vms :: {}))
    else TagsDetached(map v | v in vms :: RemovePlan(AttachedTo(assoc, v), tokens.value, hint))
  }
}

=== FILE: tasks.dfy ===
/**
 * `_waitOnTask`: polls a remote task once a second for at most `wait`
 * rounds, stops early on success or error, and returns the state read
 * once more after the loop. A timeout is not a state of its own: the
 * caller sees whatever non-terminal state the last read returned.
 */
module Tasks {
  import opened Wrappers

  datatype TaskState = Queued | Running | Success | Error(msg: string, faults: seq<string>) {
    predicate Terminal() {
      Success? || Error?
    }
  }

  /**
   * The remote task as the poller observes it: `trace[k]` is what the k-th
   * read of `task.info.state` returns, and every read after the trace
   * returns `settled`.
   */
  datatype Task = Task(trace: seq<TaskState>, settled: TaskState)

  function StateAt(task: Task, k: nat): TaskState {
    if k < |task.trace| then task.trace[k] else task.settled
  }

  /** The default budget, in polls (one second each). */
  const DefaultWait := 42
  /** The budget for a clone. */
  const CloneWait := 1200

  /** A `--wait` option, when the command has one, overrides the caller's budget. */
  function EffectiveWait(optionWait: Option<int>, wait: int): int {
    optionWait.GetOr(wait)
  }

  /** The number of polls: up to the first terminal read, at most `budget`. */
  function PollCount(task: Task, budget: nat, from: nat): (n: nat)
    requires from <= budget
    ensures from <= n <= budget
    decreases budget - from
  {
    if from == budget then budget
    else if StateAt(task, from).Terminal() then from + 1
    else PollCount(task, budget, from + 1)
  }

  /** What one run of `_waitOnTask` did. */
  datatype WaitResult = WaitResult(state: Option<TaskState>, polls: nat, sleeps: nat)

  /**
   * The polling loop. `polls` counts reads inside the loop, `sleeps` the
   * one-second sleeps; the returned state is one more read.
   */
  method WaitOnTask(task: Option<Task>, optionWait: Option<int>, wait: int) returns (r: WaitResult)
    ensures task.None? ==> r == WaitResult(None, 0, 0)
    ensures task.Some? ==> r.state == Some(StateAt(task.value, r.polls))
    ensures r.polls <= (if EffectiveWait(optionWait, wait) < 0 then 0 else EffectiveWait(optionWait, wait))
    ensures task.Some? ==> forall k | 0 <= k < r.sleeps :: !StateAt(task.value, k).Terminal()
    ensures task.Some? ==> r.sleeps == r.polls || (r.sleeps + 1 == r.polls && StateAt(task.value, r.sleeps).Terminal())
    ensures task.Some? && r.polls < EffectiveWait(optionWait, wait) ==>
      r.polls > 0 && StateAt(task.value, r.polls - 1).Terminal()
  {
    if task.None? {
      return WaitResult(None, 0, 0);
    }
    var t := task.value;
    var budget := EffectiveWait(optionWait, wait);
    var polls: nat := 0;
    var sleeps: nat := 0;
    var done := false;
    while polls < budget && !done
      invariant polls == sleeps || (polls == sleeps + 1 && done)
      invariant polls <= (if budget < 0 then 0 else budget)
      invariant forall k | 0 <= k < sleeps :: !StateAt(t, k).Terminal()
      invariant done ==> polls > 0 && StateAt(t, polls - 1).Terminal()
    {
      var s := StateAt(t, polls);
      polls := polls + 1;
      if s.Terminal() {
        done := true;
      } else {
        sleeps := sleeps + 1;
      }
    }
    return WaitResult(Some(StateAt(t, polls)), polls, sleeps);
  }

  /** The loop polls exactly as often as the reference count says. */
  method WaitMatchesPollCount(task: Task, wait: nat) returns (r: WaitResult)
    ensures r.polls == PollCount(task, wait, 0)
    ensures r.state == Some(StateAt(task, PollCount(task, wait, 0)))
  {
    r := WaitOnTask(Some(task), None, wait);
    PollCountCharacterised(task, wait, 0, r.polls);
  }

  /**
   * `PollCount` is the only count that polls within budget, never past a
   * terminal read, and stops early only on one.
   */
  lemma {:induction false} PollCountCharacterised(task: Task, budget: nat, from: nat, n: nat)
    requires from <= n <= budget
    requires forall k | from <= k < n - 1 :: !StateAt(task, k).Terminal()
    requires n > from ==> (n == budget || StateAt(task, n - 1).Terminal())
    requires n == from ==> from == budget
    ensures PollCount(task, budget, from) == n
    decreases budget - from
  {
    if from < budget {
      if StateAt(task, from).Terminal() {
        assert n == from + 1;
      } else {
        PollCountCharacterised(task, budget, from + 1, n);
      }
    }
  }

  /** How the result is reported to the user. */
  datatype Report = Completed | Failed(lines: seq<string>) | StillRunning | OtherState(state: TaskState)

  function ReportOf(state: TaskState): (r: Report)
    ensures r.Completed? <==> state.Success?
    ensures r.Failed? <==> state.Error?
    ensures r.Failed? ==> |r.lines| == 1 + |state.faults| && r.lines[0] == state.msg
  {
    match state
    case Success => Completed
    case Error(msg, faults) => Failed([msg] + faults)
    case Running => StillRunning
    case Queued => OtherState(Queued)
  }

  /** A task that succeeds on the third read: three polls, two sleeps. */
  method SuccessOnThirdPoll() returns (r: WaitResult)
    ensures r == WaitResult(Some(Success), 3, 2)
  {
    r := WaitOnTask(Some(Task([Queued, Running, Success], Success)), None, DefaultWait);
    assert !StateAt(Task([Queued, Running, Success], Success), 0).Terminal();
    assert !StateAt(Task([Queued, Running, Success], Success), 1).Terminal();
    assert StateAt(Task([Queued, Running, Success], Success), 2) == Success;
    assert StateAt(Task([Queued, Running, Success], Success), 3) == Success;
  }

  /** A task still running after a five-poll budget: five polls, five sleeps, state running. */
  method TimeoutAfterBudget() returns (r: WaitResult)
    ensures r == WaitResult(Some(Running), 5, 5)
  {
    r := WaitOnTask(Some(Task([], Running)), Some(5), DefaultWait);
  }
}

=== FILE: text.dfy ===
/**
 * The handful of Python string operations the tool relies on, over
 * `seq<char>`: `lower()`, `in` on strings, `split(sep)`, `split()`,
 * `startswith`, `isdigit()`, `int()` and `str()` of an integer.
 * Only the ASCII letters are case-folded.
 */
module Text {

  predicate IsUpper(c: char) {
    'A' <= c <= 'Z'
  }

  function LowerChar(c: char): (r: char)
    ensures !IsUpper(r)
    ensures !IsUpper(c) ==> r == c
  {
    if IsUpper(c) then (c as int + 32) as char else c
  }

  /** True when `s` has no upper-case letter, i.e. `s.lower() == s`. */
  predicate IsLowered(s: string) {
    forall i :: 0 <= i < |s| ==> !IsUpper(s[i])
  }

  /** Python's `s.lower()`. */
  function Lower(s: string): (r: string)
    ensures |r| == |s|
    ensures forall i :: 0 <= i < |s| ==> r[i] == LowerChar(s[i])
    ensures IsLowered(r)
    ensures IsLowered(s) ==> r == s
  {
    seq(|s|, i requires 0 <= i < |s| => LowerChar(s[i]))
  }

  /** Python's `t in s` on two strings; the empty string is in every string. */
  predicate IsSubstring(t: string, s: string) {
    exists i | 0 <= i <= |s| :: OccursAt(t, s, i)
  }

  predicate OccursAt(t: string, s: string, i: int) {
    0 <= i && i + |t| <= |s| && s[i..i + |t|] == t
  }

  lemma SubstringOfItself(s: string)
    ensures IsSubstring(s, s)
  {
    assert OccursAt(s, s, 0);
  }

  lemma EmptyIsSubstring(s: string)
    ensures IsSubstring("", s)
  {
    assert OccursAt("", s, 0);
  }

  function StartsWith(s: string, prefix: string): bool {
    |prefix| <= |s| && s[..|prefix|] == prefix
  }

  /** Python's `s.replace(a, b)` for single characters. */
  function ReplaceChar(s: string, a: char, b: char): (r: string)
    ensures |r| == |s|
    ensures forall i :: 0 <= i < |s| ==> r[i] == (if s[i] == a then b else s[i])
  {
    seq(|s|, i requires 0 <= i < |s| => if s[i] == a then b else s[i])
  }

  /** Python's `s.split(sep)`: never empty, empty pieces kept. */
  function Split(s: string, sep: char): (r: seq<string>)
    ensures |r| >= 1
    ensures forall k :: 0 <= k < |r| ==> sep !in r[k]
  {
    if s == [] then [""]
    else
      var rest := Split(s[1..], sep);
      if s[0] == sep then [""] + rest
      else [[s[0]] + rest[0]] + rest[1..]
  }

  /** Python's `sep.join(pieces)`. */
  function Join(pieces: seq<string>, sep: char): string
    requires |pieces| >= 1
  {
    if |pieces| == 1 then pieces[0]
    else pieces[0] + [sep] + Join(pieces[1..], sep)
  }

  /** Splitting then joining on the same separator gives back the input. */
  lemma {:induction false} JoinSplit(s: string, sep: char)
    ensures Join(Split(s, sep), sep) == s
  {
    if s != [] {
      JoinSplit(s[1..], sep);
      var rest := Split(s[1..], sep);
      if s[0] != sep {
        if |rest| == 1 {
        } else {
          assert ([s[0]] + rest[0]) + [sep] + Join(rest[1..], sep)
              == [s[0]] + (rest[0] + [sep] + Join(rest[1..], sep));
          assert ([[s[0]] + rest[0]] + rest[1..])[1..] == rest[1..];
        }
      }
    }
  }

  /** Joining pieces free of the separator, then splitting, gives back the pieces. */
  lemma {:induction false} SplitJoin(pieces: seq<string>, sep: char)
    requires |pieces| >= 1
    requires forall k :: 0 <= k < |pieces| ==> sep !in pieces[k]
    ensures Split(Join(pieces, sep), sep) == pieces
  {
    if |pieces| == 1 {
      SplitNoSep(pieces[0], sep);
    } else {
      SplitJoin(pieces[1..], sep);
      SplitPrefix(pieces[0], Join(pieces[1..], sep), sep);
      assert [pieces[0]] + pieces[1..] == pieces;
    }
  }

  lemma {:induction false} SplitNoSep(s: string, sep: char)
    requires sep !in s
    ensures Split(s, sep) == [s]
  {
    if s != [] {
      SplitNoSep(s[1..], sep);
      assert [s[0]] + s[1..] == s;
    }
  }

  lemma {:induction false} SplitPrefix(p: string, t: string, sep: char)
    requires sep !in p
    ensures Split(p + [sep] + t, sep) == [p] + Split(t, sep)
  {
    if p == [] {
      assert p + [sep] + t == [sep] + t;
      assert ([sep] + t)[1..] == t;
    } else {
      assert (p + [sep] + t)[1..] == p[1..] + [sep] + t;
      SplitPrefix(p[1..], t, sep);
      assert [p[0]] + p[1..] == p;
    }
  }

  predicate IsWhitespace(c: char) {
    c == ' ' || c == '\t' || c == '\n' || c == '\r' || c as int == 11 || c as int == 12
  }

  /** `len(line.split()) == 0`: nothing but whitespace. */
  predicate IsBlank(line: string) {
    forall i :: 0 <= i < |line| ==> IsWhitespace(line[i])
  }

  function DropWhitespace(s: string): (r: string)
    ensures |r| <= |s|
    ensures r == s[|s| - |r|..]
    ensures r != [] ==> !IsWhitespace(r[0])
    ensures r == [] ==> IsBlank(s)
  {
    if s == [] || !IsWhitespace(s[0]) then s else DropWhitespace(s[1..])
  }

  function TakeWord(s: string): (r: string)
    ensures |r| <= |s| && r == s[..|r|]
    ensures forall i :: 0 <= i < |r| ==> !IsWhitespace(r[i])
  {
    if s == [] || IsWhitespace(s[0]) then [] else [s[0]] + TakeWord(s[1..])
  }

  /** `line.split()[0]` of a line that is not blank: its first word, never empty. */
  function FirstWord(line: string): (r: string)
    requires !IsBlank(line)
    ensures r != []
    ensures forall i :: 0 <= i < |r| ==> !IsWhitespace(r[i])
  {
    TakeWord(DropWhitespace(line))
  }

  function DigitChar(d: nat): char
    requires d < 10
  {
    "0123456789"[d]
  }

  predicate IsDigit(c: char) {
    '0' as int <= c as int <= '9' as int
  }

  /** Python's `s.isdigit()` on ASCII text: non-empty and every character a digit. */
  predicate IsDigits(s: string) {
    |s| > 0 && forall i :: 0 <= i < |s| ==> IsDigit(s[i])
  }

  /** Python's `str(n)` for a non-negative integer. */
  function NatToString(n: nat): (r: string)
    ensures IsDigits(r)
  {
    if n < 10 then [DigitChar(n)] else NatToString(n / 10) + [DigitChar(n % 10)]
  }

  /** Python's `str(i)`. */
  function IntToString(i: int): string {
    if i < 0 then "-" + NatToString(-i) else NatToString(i)
  }

  /** Python's `int(s)` on a digit string. */
  function ParseDigits(s: string): nat
    requires forall i :: 0 <= i < |s| ==> IsDigit(s[i])
  {
    if s == [] then 0 else ParseDigits(s[..|s| - 1]) * 10 + DigitValue(s[|s| - 1])
  }

  function DigitValue(c: char): nat
    requires IsDigit(c)
  {
    c as int - '0' as int
  }

  /** `int(str(n)) == n`. */
  lemma {:induction false} ParseNatToString(n: nat)
    ensures ParseDigits(NatToString(n)) == n
  {
    if n >= 10 {
      var s := NatToString(n);
      assert s[..|s| - 1] == NatToString(n / 10);
      ParseNatToString(n / 10);
    }
  }
}

=== FILE: tokens.dfy ===
/**
 * `_toList`: turns the user's `names` argument into a flat list of
 * lower-cased tokens, or `None` when no token is left. A single string is
 * split on commas and spaces; a list keeps its items and splits each one
 * on commas; an item naming a readable local file is replaced by the first
 * word of each of its non-blank lines that does not start with `#`.
 *
 * The local file system is an oracle: `files` maps every readable regular
 * file's path to its lines.
 */
module Tokens {
  import opened Wrappers
  import opened Text
  import opened Resolver

  type Files = map<string, seq<string>>

  /** The `names` list after a single string has been split on commas and spaces. */
  function RawNames(arg: NameArg): seq<string> {
    match arg
    case NoNames => []
    case OneName(s) => Split(ReplaceChar(s, ',', ' '), ' ')
    case NameList(items) => items
  }

  predicate IsCommentOrBlank(line: string) {
    IsBlank(line) || StartsWith(line, "#")
  }

  /** First words of the lines of a names file, blank and `#` lines skipped. */
  function FileTokens(lines: seq<string>): (r: seq<string>)
    ensures |r| <= |lines|
    ensures forall k :: 0 <= k < |r| ==> r[k] != []
    ensures r == [] <==> forall k :: 0 <= k < |lines| ==> IsCommentOrBlank(lines[k])
  {
    if lines == [] then []
    else
      var head := LineToken(lines[0]);
      var rest := FileTokens(lines[1..]);
      AllSkippedStep(lines);
      head + rest
  }

  /** The token one line of a names file contributes: its first word, or nothing for a skipped line. */
  function LineToken(line: string): (r: seq<string>)
    ensures |r| <= 1
    ensures r == [] <==> IsCommentOrBlank(line)
    ensures forall k :: 0 <= k < |r| ==> r[k] != []
  {
    if IsCommentOrBlank(line) then [] else [FirstWord(line)]
  }

  /** Every line is skipped exactly when the first one is and every later one is. */
  lemma AllSkippedStep(lines: seq<string>)
    requires lines != []
    ensures (forall k :: 0 <= k < |lines| ==> IsCommentOrBlank(lines[k])) <==>
            IsCommentOrBlank(lines[0]) && forall k :: 0 <= k < |lines[1..]| ==> IsCommentOrBlank(lines[1..][k])
  {
    assert forall k :: 0 <= k < |lines[1..]| ==> lines[1..][k] == lines[k + 1];
  }

  function NonEmpty(pieces: seq<string>): (r: seq<string>)
    ensures forall k :: 0 <= k < |r| ==> r[k] != [] && r[k] in pieces
    ensures forall k :: 0 <= k < |pieces| && pieces[k] != [] ==> pieces[k] in r
  {
    if pieces == [] then []
    else (if pieces[0] == [] then [] else [pieces[0]]) + NonEmpty(pieces[1..])
  }

  /**
   * The expansion loop as the source writes it: an empty item is skipped,
   * but the pieces of `item.split(',')` are appended as they are, so an
   * item such as "web," contributes an empty piece.
   */
  function ExpandAsWritten(names: seq<string>, files: Files): seq<string> {
    if names == [] then []
    else
      var item := names[0];
      (if item == "" then []
       else if item in files then FileTokens(files[item])
       else Split(item, ',')) + ExpandAsWritten(names[1..], files)
  }

  /** The expansion loop with the empty pieces dropped, as the skip of empty items intends. */
  function Expand(names: seq<string>, files: Files): (r: seq<string>)
    ensures forall k :: 0 <= k < |r| ==> r[k] != []
  {
    if names == [] then []
    else
      var item := names[0];
      (if item == "" then []
       else if item in files then FileTokens(files[item])
       else NonEmpty(Split(item, ','))) + Expand(names[1..], files)
  }

  function LowerAll(ts: seq<string>): (r: seq<string>)
    ensures |r| == |ts|
    ensures forall k :: 0 <= k < |ts| ==> r[k] == Lower(ts[k])
  {
    seq(|ts|, k requires 0 <= k < |ts| => Lower(ts[k]))
  }

  /** Dropping empty pieces distributes over concatenation. */
  lemma {:induction false} NonEmptyConcat(a: seq<string>, b: seq<string>)
    ensures NonEmpty(a + b) == NonEmpty(a) + NonEmpty(b)
  {
    if a != [] {
      var head := if a[0] == [] then [] else [a[0]];
      assert (a + b)[0] == a[0];
      assert (a + b)[1..] == a[1..] + b;
      assert NonEmpty(a + b) == head + NonEmpty(a[1..] + b);
      assert NonEmpty(a) == head + NonEmpty(a[1..]);
      NonEmptyConcat(a[1..], b);
    } else {
      assert a + b == b;
    }
  }

  /** A list without empty pieces loses nothing. */
  lemma {:induction false} NonEmptyKeeps(pieces: seq<string>)
    requires forall k :: 0 <= k < |pieces| ==> pieces[k] != []
    ensures NonEmpty(pieces) == pieces
  {
    if pieces != [] {
      NonEmptyKeeps(pieces[1..]);
    }
  }

  /**
   * The corrected expansion is the expansion as written with its empty
   * pieces dropped, and nothing else changed: same tokens, same order.
   */
  lemma {:induction false} ExpandDropsOnlyEmpty(names: seq<string>, files: Files)
    ensures Expand(names, files) == NonEmpty(ExpandAsWritten(names, files))
  {
    if names != [] {
      var item := names[0];
      var first := if item == "" then [] else if item in files then FileTokens(files[item]) else Split(item, ',');
      NonEmptyConcat(first, ExpandAsWritten(names[1..], files));
      if item != "" && item in files {
        NonEmptyKeeps(FileTokens(files[item]));
      }
      ExpandDropsOnlyEmpty(names[1..], files);
    }
  }

  /** `_toList` as written: lower-cased tokens, possibly empty ones. */
  function ToListAsWritten(arg: NameArg, files: Files): (r: Option<seq<string>>)
    ensures arg.NoNames? ==> r.None?
    ensures r.Some? ==> |r.value| > 0 && forall k :: 0 <= k < |r.value| ==> IsLowered(r.value[k])
  {
    if arg.NoNames? then None
    else
      var ts := LowerAll(ExpandAsWritten(RawNames(arg), files));
      if |ts| == 0 then None else Some(ts)
  }

  /**
   * `_toList` with empty pieces dropped: the tokens are never empty and
   * always lower-cased, and `None` stands for "no token at all".
   */
  function ToList(arg: NameArg, files: Files): (r: Option<seq<string>>)
    ensures arg.NoNames? ==> r.None?
    ensures r.Some? ==> |r.value| > 0
    ensures r.Some? ==> forall k :: 0 <= k < |r.value| ==> r.value[k] != [] && IsLowered(r.value[k])
  {
    if arg.NoNames? then None
    else
      var ts := LowerAll(Expand(RawNames(arg), files));
      if |ts| == 0 then None else Some(ts)
  }

  /** Where the source yields no empty token, the correction changes nothing. */
  lemma ToListAgreesWithoutEmptyPieces(arg: NameArg, files: Files)
    requires forall k :: 0 <= k < |ExpandAsWritten(RawNames(arg), files)| ==> ExpandAsWritten(RawNames(arg), files)[k] != []
    ensures ToList(arg, files) == ToListAsWritten(arg, files)
  {
    ExpandDropsOnlyEmpty(RawNames(arg), files);
    NonEmptyKeeps(ExpandAsWritten(RawNames(arg), files));
  }

  /** What the resolver receives from `_toList`: `None` or a non-empty list. */
  function AsNameArg(tokens: Option<seq<string>>): NameArg {
    match tokens
    case None => NoNames
    case Some(ts) => NameList(ts)
  }

  lemma SplitWebComma()
    ensures Split("web,", ',') == ["web", ""]
  {
    SplitPrefix("web", "", ',');
    assert "web" + [','] + "" == "web,";
  }

  /** As written, a trailing comma in a list item yields an empty token. */
  lemma TrailingCommaAsWritten()
    ensures ToListAsWritten(NameList(["web,"]), map[]) == Some(["web", ""])
  {
    SplitWebComma();
    assert ["web,"][1..] == [];
    assert ExpandAsWritten(["web,"], map[]) == ["web", ""];
    assert IsLowered("web") && IsLowered("");
    assert LowerAll(["web", ""]) == ["web", ""];
  }

  /** With empty pieces dropped, the same item yields just its name. */
  lemma TrailingCommaDropped()
    ensures ToList(NameList(["web,"]), map[]) == Some(["web"])
  {
    SplitWebComma();
    assert ["web", ""][1..] == [""];
    assert NonEmpty(["web", ""]) == ["web"];
    assert ["web,"][1..] == [];
    assert Expand(["web,"], map[]) == ["web"];
    assert IsLowered("web");
    assert LowerAll(["web"]) == ["web"];
  }

  /** A token free of commas and spaces. */
  predicate PlainToken(w: string) {
    w != [] && ',' !in w && ' ' !in w
  }

  lemma ReplaceConcat(x: string, y: string, a: char, b: char)
    ensures ReplaceChar(x + y, a, b) == ReplaceChar(x, a, b) + ReplaceChar(y, a, b)
  {
  }

  lemma {:induction false} ReplaceJoin(ws: seq<string>)
    requires |ws| >= 1
    requires forall k :: 0 <= k < |ws| ==> ',' !in ws[k]
    ensures ReplaceChar(Join(ws, ','), ',', ' ') == Join(ws, ' ')
  {
    assert ReplaceChar(ws[0], ',', ' ') == ws[0];
    if |ws| > 1 {
      ReplaceJoin(ws[1..]);
      ReplaceConcat(ws[0] + [','], Join(ws[1..], ','), ',', ' ');
      ReplaceConcat(ws[0], [','], ',', ' ');
    }
  }

  lemma {:induction false} ExpandPlain(ws: seq<string>, files: Files)
    requires forall k :: 0 <= k < |ws| ==> PlainToken(ws[k]) && ws[k] !in files
    ensures Expand(ws, files) == ws
  {
    if ws != [] {
      assert PlainToken(ws[0]) && ws[0] !in files;
      SplitNoSep(ws[0], ',');
      assert NonEmpty([ws[0]]) == [ws[0]];
      assert Expand(ws, files) == [ws[0]] + Expand(ws[1..], files);
      assert forall k :: 0 <= k < |ws[1..]| ==> ws[1..][k] == ws[k + 1];
      ExpandPlain(ws[1..], files);
      assert [ws[0]] + ws[1..] == ws;
    }
  }

  /**
   * Round trip: lower-case tokens joined with commas into one string come
   * back from `_toList` unchanged, in order.
   */
  lemma CommaListRoundTrip(ws: seq<string>, files: Files)
    requires |ws| >= 1
    requires forall k :: 0 <= k < |ws| ==> PlainToken(ws[k]) && IsLowered(ws[k]) && ws[k] !in files
    ensures ToList(OneName(Join(ws, ',')), files) == Some(ws)
  {
    ReplaceJoin(ws);
    SplitJoin(ws, ' ');
    ExpandPlain(ws, files);
    assert LowerAll(ws) == ws;
  }
}

=== FILE: vmfilter.dfy ===
/**
 * `_getVmObjects`: the name-resolved VMs, then the attribute filters of
 * the command line applied one after another. A VM leaves the result at
 * the first filter it fails.
 */
module VmFilter {
  import opened Wrappers
  import opened Text
  import opened Inventory
  import opened Resolver
  import Tokens

  /** The attribute options; `None` is an option the user did not give. */
  datatype Filter = Filter(
    os: Option<string>,          // "linux" or "windows"
    template: Option<bool>,      // defaults to false: plain VMs only
    hwVersion: Option<int>,
    snapshot: Option<bool>,
    consolidate: Option<bool>,
    power: Option<bool>,         // true: not poweredOff; false: not poweredOn
    cluster: Option<string>,
    host: Option<string>)

  const NoOptions := Filter(None, None, None, None, None, None, None, None)

  /** `'vmx-{:02d}'.format(v)`. */
  function VmxLabel(v: int): string {
    "vmx-" + (if v < 0 then "-" + NatToString(-v)
              else if v < 10 then "0" + NatToString(v)
              else NatToString(v))
  }

  lemma VmxLabelExamples()
    ensures VmxLabel(9) == "vmx-09"
    ensures VmxLabel(13) == "vmx-13"
  {
    assert NatToString(13) == NatToString(1) + [DigitChar(3)];
  }

  lemma ParseLeadingZero(c: char)
    requires IsDigit(c)
    ensures ParseDigits(['0', c]) == ParseDigits([c])
  {
    assert ['0', c][..1] == ['0'];
    assert ['0'][..0] == [];
    assert [c][..0] == [];
  }

  /** The digits after "vmx-" read back as the version, leading zero or not. */
  lemma VmxLabelParses(v: nat)
    ensures var digits := VmxLabel(v)[4..];
            (forall i :: 0 <= i < |digits| ==> IsDigit(digits[i])) && ParseDigits(digits) == v
  {
    ParseNatToString(v);
    if v < 10 {
      var s := NatToString(v);
      assert s == [s[0]];
      assert VmxLabel(v)[4..] == ['0', s[0]];
      ParseLeadingZero(s[0]);
    } else {
      assert VmxLabel(v)[4..] == NatToString(v);
    }
  }

  /** Distinct hardware versions are never confused by the `hw-version` filter. */
  lemma VmxLabelInjective(a: nat, b: nat)
    requires a != b
    ensures VmxLabel(a) != VmxLabel(b)
  {
    VmxLabelParses(a);
    VmxLabelParses(b);
  }

  datatype Verdict = Keep | Skip | LookupCrash

  /**
   * One iteration of the filter loop. `LookupCrash` is the uncaught
   * attribute error of the cluster filter on a VM without a host; the
   * host filter catches the same error and skips the VM instead.
   */
  function Judge(vm: Vm, f: Filter): (v: Verdict)
    ensures v == Keep ==> vm.guestId.Some? && vm.template == f.template.GetOr(false)
    ensures v == LookupCrash ==> f.cluster.Some? && vm.host.None?
  {
    if vm.guestId.None? then Skip
    else if f.os == Some("linux") && IsSubstring("win", vm.guestId.value) then Skip
    else if f.os == Some("windows") && !IsSubstring("win", vm.guestId.value) then Skip
    else if vm.template != f.template.GetOr(false) then Skip
    else if f.hwVersion.Some? && VmxLabel(f.hwVersion.value) != vm.version then Skip
    else if f.snapshot == Some(true) && |vm.rootSnapshots| == 0 then Skip
    else if f.snapshot == Some(false) && |vm.rootSnapshots| > 0 then Skip
    else if f.consolidate.Some? && vm.consolidationNeeded != f.consolidate.value then Skip
    else if f.power == Some(true) && vm.power == PoweredOff then Skip
    else if f.power == Some(false) && vm.power == PoweredOn then Skip
    else if f.cluster.Some? && vm.host.None? then LookupCrash
    else if f.cluster.Some? && !IsSubstring(Lower(f.cluster.value), Lower(vm.host.value.clusterName)) then Skip
    else if f.host.Some? && (vm.host.None? || !IsSubstring(Lower(f.host.value), Lower(vm.host.value.name))) then Skip
    else Keep
  }

  /**
   * The filtered dictionary, or `None` when the loop raises. The result is
   * always a sub-dictionary of the name-resolved one.
   */
  function FilterVms(m: map<string, Entry<Vm>>, f: Filter): (r: Option<map<string, Entry<Vm>>>)
    ensures r.None? <==> exists k | k in m :: Judge(m[k].obj, f) == LookupCrash
    ensures r.Some? ==> r.value.Keys <= m.Keys && forall k | k in r.value :: r.value[k] == m[k]
    ensures r.Some? ==> forall k | k in m :: k in r.value <==> Judge(m[k].obj, f) == Keep
  {
    if exists k | k in m :: Judge(m[k].obj, f) == LookupCrash then None
    else Some(map k | k in m && Judge(m[k].obj, f) == Keep :: m[k])
  }

  /** Templates are left out unless the template option is given. */
  lemma TemplatesExcludedByDefault(m: map<string, Entry<Vm>>, f: Filter)
    requires f.template.None?
    ensures FilterVms(m, f).Some? ==>
      forall k | k in FilterVms(m, f).value :: !FilterVms(m, f).value[k].obj.template
  {
  }

  /** Every VM of the dictionary is a template. */
  predicate AllTemplates(m: map<string, Entry<Vm>>) {
    forall k | k in m :: m[k].obj.template
  }

  /** Without the template option, a dictionary of templates filters down to nothing. */
  lemma OnlyTemplatesLeaveNothing(m: map<string, Entry<Vm>>)
    requires AllTemplates(m)
    ensures FilterVms(m, NoOptions) == Some(map[])
  {
    forall k | k in m ensures Judge(m[k].obj, NoOptions) == Skip {
      assert NoOptions.template.GetOr(false) == false;
    }
    assert FilterVms(m, NoOptions).value.Keys == {};
  }

  /**
   * A lookup whose name resolution finds only templates selects nothing
   * when the template option is not given.
   */
  lemma TemplatesNeverSelected(names: NameArg, files: Tokens.Files, exactMatch: Option<bool>, fetched: seq<Entry<Vm>>)
    requires AllTemplates(Resolve(fetched, SelectorFor(Tokens.AsNameArg(Tokens.ToList(names, files)), exactMatch)))
    ensures SelectVms(names, files, exactMatch, fetched, NoOptions) == Some(map[])
  {
    var named := Resolve(fetched, SelectorFor(Tokens.AsNameArg(Tokens.ToList(names, files)), exactMatch));
    OnlyTemplatesLeaveNothing(named);
    SelectVmsUnfold(names, files, exactMatch, fetched, NoOptions);
  }

  /** An ordinary VM with a guest id and no option at all passes the filter. */
  lemma NoOptionsKeepsPlainVms(vm: Vm)
    requires vm.guestId.Some? && !vm.template
    ensures Judge(vm, NoOptions) == Keep
  {
  }

  /**
   * The power option is tri-state: `true` drops exactly the poweredOff
   * VMs and `false` exactly the poweredOn ones, so a suspended VM survives
   * both.
   */
  lemma PowerOption(vm: Vm, on: bool)
    requires vm.guestId.Some? && !vm.template
    ensures Judge(vm, NoOptions.(power := Some(on))) == Keep <==>
      vm.power != (if on then PoweredOff else PoweredOn)
  {
  }

  lemma SuspendedSurvivesPowerOption(vm: Vm, on: bool)
    requires vm.guestId.Some? && !vm.template && vm.power == Suspended
    ensures Judge(vm, NoOptions.(power := Some(on))) == Keep
  {
    PowerOption(vm, on);
  }

  /** The snapshot option keeps exactly the VMs whose snapshot presence it asks for. */
  lemma SnapshotOption(vm: Vm, has: bool)
    requires vm.guestId.Some? && !vm.template
    ensures Judge(vm, NoOptions.(snapshot := Some(has))) == Keep <==> (|vm.rootSnapshots| > 0) == has
  {
  }

  /**
   * The OS option: "linux" keeps exactly the guests whose id does not
   * contain "win", "windows" exactly those whose id does, and any other
   * value keeps every guest.
   */
  lemma OsOption(vm: Vm, os: string)
    requires vm.guestId.Some? && !vm.template
    ensures Judge(vm, NoOptions.(os := Some(os))) == Keep <==>
      if os == "linux" then !IsSubstring("win", vm.guestId.value)
      else if os == "windows" then IsSubstring("win", vm.guestId.value)
      else true
  {
  }

  /** The hardware-version option keeps exactly the VMs at the zero-padded `vmx-NN` label. */
  lemma HwVersionOption(vm: Vm, v: int)
    requires vm.guestId.Some? && !vm.template
    ensures Judge(vm, NoOptions.(hwVersion := Some(v))) == Keep <==> vm.version == VmxLabel(v)
  {
  }

  /** The consolidate option keeps exactly the VMs whose consolidation flag it asks for. */
  lemma ConsolidateOption(vm: Vm, needed: bool)
    requires vm.guestId.Some? && !vm.template
    ensures Judge(vm, NoOptions.(consolidate := Some(needed))) == Keep <==> vm.consolidationNeeded == needed
  {
  }

  /**
   * The cluster option keeps exactly the VMs whose cluster name contains
   * the option, case-insensitively, and raises on a VM without a host.
   */
  lemma ClusterOption(vm: Vm, cluster: string)
    requires vm.guestId.Some? && !vm.template
    ensures Judge(vm, NoOptions.(cluster := Some(cluster))) == LookupCrash <==> vm.host.None?
    ensures Judge(vm, NoOptions.(cluster := Some(cluster))) == Keep <==>
      vm.host.Some? && IsSubstring(Lower(cluster), Lower(vm.host.value.clusterName))
  {
  }

  /**
   * The host option keeps exactly the VMs whose host name contains the
   * option, case-insensitively; it never raises.
   */
  lemma HostOption(vm: Vm, host: string)
    requires vm.guestId.Some? && !vm.template
    ensures Judge(vm, NoOptions.(host := Some(host))) != LookupCrash
    ensures Judge(vm, NoOptions.(host := Some(host))) == Keep <==>
      vm.host.Some? && IsSubstring(Lower(host), Lower(vm.host.value.name))
  {
  }

  /** A VM whose host cannot be looked up is excluded by the host option, not reported. */
  lemma HostLookupFailureExcludes(vm: Vm, f: Filter)
    requires f.host.Some? && f.cluster.None? && vm.host.None?
    ensures Judge(vm, f) == Skip
  {
  }

  /**
   * `_getVmObjects`: `_toList`, the name filter, then the attribute
   * filters. The tokens come from the corrected `_toList`.
   */
  function SelectVms(names: NameArg, files: Tokens.Files, exactMatch: Option<bool>,
                     fetched: seq<Entry<Vm>>, f: Filter): (r: Option<map<string, Entry<Vm>>>)
    ensures r.Some? ==> forall k | k in r.value ::
      && r.value[k].name == k
      && Judge(r.value[k].obj, f) == Keep
      && exists i | 0 <= i < |fetched| :: fetched[i] == r.value[k]
    ensures Tokens.ToList(names, files).None? && r.Some? ==>
      forall i | 0 <= i < |fetched| && Judge(fetched[i].obj, f) == Keep &&
                 (forall j | i < j < |fetched| :: fetched[j].name != fetched[i].name) ::
        fetched[i].name in r.value
  {
    var sel := SelectorFor(Tokens.AsNameArg(Tokens.ToList(names, files)), exactMatch);
    SelectedAreFetched(fetched, sel, f);
    KeptWhenNoNames(fetched, f);
    FilterVms(Resolve(fetched, sel), f)
  }

  /** The selection is the attribute filter applied to the name search. */
  lemma SelectVmsUnfold(names: NameArg, files: Tokens.Files, exactMatch: Option<bool>,
                        fetched: seq<Entry<Vm>>, f: Filter)
    ensures SelectVms(names, files, exactMatch, fetched, f)
         == FilterVms(Resolve(fetched, SelectorFor(Tokens.AsNameArg(Tokens.ToList(names, files)), exactMatch)), f)
  {
  }

  lemma SelectedAreFetched(fetched: seq<Entry<Vm>>, sel: Selector, f: Filter)
    ensures var r := FilterVms(Resolve(fetched, sel), f);
            r.Some? ==> forall k | k in r.value ::
              && r.value[k].name == k
              && Judge(r.value[k].obj, f) == Keep
              && exists i | 0 <= i < |fetched| :: fetched[i] == r.value[k]
  {
    var m := Resolve(fetched, sel);
    forall k | k in m ensures exists i | 0 <= i < |fetched| :: fetched[i] == m[k] {
      var i :| LastKeptAt(fetched, sel, m[k], i);
    }
  }

  lemma KeptWhenNoNames(fetched: seq<Entry<Vm>>, f: Filter)
    ensures var r := FilterVms(Resolve(fetched, KeepAll), f);
            r.Some? ==> forall i | 0 <= i < |fetched| && Judge(fetched[i].obj, f) == Keep &&
                                   (forall j | i < j < |fetched| :: fetched[j].name != fetched[i].name) ::
              fetched[i].name in r.value
  {
    var m := Resolve(fetched, KeepAll);
    forall i | 0 <= i < |fetched| && (forall j | i < j < |fetched| :: fetched[j].name != fetched[i].name)
      ensures fetched[i].name in m && m[fetched[i].name] == fetched[i]
    {
      assert Kept(KeepAll, fetched[i]);
      var j :| LastKeptAt(fetched, KeepAll, m[fetched[i].name], j);
    }
  }

  /**
   * With exact matching, every selected VM was named by one of the tokens,
   * through its lower-cased name or its id.
   */
  lemma SelectExactIsNamed(names: NameArg, files: Tokens.Files, fetched: seq<Entry<Vm>>, f: Filter)
    requires Tokens.ToList(names, files).Some?
    ensures var r := SelectVms(names, files, Some(true), fetched, f);
            var ts := Tokens.ToList(names, files).value;
            r.Some? ==> forall k | k in r.value ::
              Lower(r.value[k].name) in ts || r.value[k].moId in ts
  {
    var ts := Tokens.ToList(names, files).value;
    var m := Resolve(fetched, Exact(ts));
    forall k | k in m
      ensures Lower(m[k].name) in ts || m[k].moId in ts
    {
      var i :| LastKeptAt(fetched, Exact(ts), m[k], i);
    }
  }
}

=== FILE: wrappers.dfy ===
/** Optional values, standing in for Python's `None`. */
module Wrappers {

  datatype Option<+T> = None | Some(value: T) {

    /** The wrapped value, or `default` when there is none. */
    function GetOr(default: T): T {
      match this
      case Some(v) => v
      case None => default
    }
  }
}
